=== FILE: README.md ===
# Flashcard trainer: scheduling and grading core

A Dafny model of the study loop of a terminal flashcard trainer (`main.ts`).
The trainer loads question sets, remembers a mastery rank per question in
`user.json`, and asks questions in iterations. A question of rank `r` is due
in iteration `i` when `i % 2^r == 0`. Rank 0 and rank 1 questions are asked as
multiple choice with 4 and 8 options. Higher ranks are typed in and graded by
edit distance, with a self-confirmation for near misses. A right answer raises
the rank by one, a wrong one lowers it by one, never below 0. An aborted answer
prompt saves progress and quits; an aborted confirmation counts as "no", and an
aborted end-of-iteration prompt continues.

The model is a set of pure functions over immutable data, plus two imperative
methods with loops: `Shuffle.ShuffleArray` for `shuffle_array`, and
`Sets.ExpandInPlace` for the loop that appends reversed copies to the array it
walks:

- `text.dfy` (`Text`): `Option`, the first-letter test on prompt replies
  (`(reply || "n")[0].toLowerCase()`), decimal rendering, and the decimal
  subset of `+selection`.
- `edit_distance.dfy` (`EditDistance`): the standard recursive Levenshtein
  distance, standing in for the library's `levenshteinDistance`.
- `shuffle.dfy` (`Shuffle`): `shuffle_array`. The random picks are an explicit
  oracle. Pick `k` is below `n - k`, the length of the free-slot list at step
  `k`. The result is proved to be a permutation of the input.
- `sets.dfy` (`Sets`): set-file expansion. Ids are namespaced, and reversible
  entries get swapped copies.
- `store.dfy` (`Store`): the question table, the start-up defaults of
  `user.json`, and the map update of `save_data`.
- `scheduler.dfy` (`Scheduler`): the due rule, the shuffled due list, and the
  resume filter with its progress counter.
- `grader.dfy` (`Grader`): the mode chosen by rank, the two graders, and the
  rank update.
- `session.dfy` (`Session`): the session state machine. It covers one
  question, one pass over the queue, the end-of-iteration prompt and the
  outer loop.

Questions in a pass are referred to by their index in the question table. The
table is a sequence with distinct ids in key insertion order. Ids always
contain `/`, so JavaScript never reorders them as integer-like keys.

Prompts are `Option<string>`, where `None` is the `null` that `prompt` returns
at end of input. The multiple-choice options are an input: they come from the
foreign `wordSimilaritySort`.

Behaviour of the code that the contracts make visible:

- A blank multiple-choice selection reads as option 0, because `+""` is 0
  (`Grader.BlankSelectsFirst`).
- An aborted or empty reply at the end-of-iteration prompt continues the
  session; only a reply starting with `y`/`Y` quits.
- An aborted or empty confirmation reply counts as "no", so the answer is
  graded wrong.
- `save_data` writes every loaded question's rank into `known`, rank 0
  included. It removes rank-0 questions only from the in-memory question map,
  so `known` is never pruned: rank-0 entries stay in it.
- The correct answer need not be among the options shown: that depends on the
  foreign ranking (`Grader.AnswerShownIff`).

## Model

| member | source | states |
|---|---|---|
| Text.DeclinesIff | main.ts:274 | the confirmation counts as "no" exactly when it is aborted, empty, or starts with `n` or `N` |
| Text.AcceptsIff | main.ts:223 | the exit prompt counts as "yes" exactly when the reply is present, non-empty and starts with `y` or `Y` |
| Text.NatToString | main.ts:120 | the rendering of an entry index is a non-empty digit string without a leading zero |
| Text.NatToStringInjective | main.ts:120 | different entry indices render differently, so the `Q<i>` fallback ids of one set are distinct |
| Text.Initial | main.ts:274 | `(reply || "n")[0].toLowerCase()`, used by both yes/no prompts: an aborted or empty reply reads as `n`, otherwise the first character lowered |
| Text.Declines | main.ts:274 | the confirmation reply's initial is `n`; characterised by `Text.DeclinesIff` |
| Text.Accepts | main.ts:223 | the exit reply's initial is `y`; characterised by `Text.AcceptsIff` |
| Text.ParseSelection | main.ts:254 | a blank selection (after trimming white space) reads as 0; a selection is accepted exactly when it is blank or its trimmed form is all decimal digits |
| Text.ParseSelectionPadded | main.ts:254 | a number typed with white space around it and zeros in front of it selects that number, so `" 3 "` and `"03"` select 3 |
| Text.ParseSelectionOfIndex | main.ts:247-254 | typing the number printed beside an option reads back as exactly that number |
| EditDistance.Distance | main.ts:269 | the Levenshtein distance, never more than the two lengths together |
| EditDistance.DistanceSelf | main.ts:269 | a reply's distance to itself is 0 |
| EditDistance.DistanceZeroIff | main.ts:268-269 | distance 0 holds exactly between equal strings, so a mismatch is at distance at least 1 |
| EditDistance.DistanceLengthGap | main.ts:269-271 | the distance is at least the difference of the lengths |
| EditDistance.DistanceAtMostLonger | main.ts:269 | the distance is at most the length of the longer string |
| Shuffle.Range | main.ts:17 | the initial free-slot list holds every index `0 .. n-1` at its own position |
| Shuffle.Empty | main.ts:14 | the result array starts with every slot empty |
| Shuffle.Scatter | main.ts:19-37 | placing elements at oracle-picked free slots keeps the array's length |
| Shuffle.FreeListInitial | main.ts:14-17 | at the start, the free list holds distinct in-range slots and they are exactly the empty ones |
| Shuffle.SpliceKeepsExact | main.ts:19-27 | writing into the picked slot and splicing it out of the free list keeps the free list exactly the empty slots |
| Shuffle.ScatterFills | main.ts:19-39 | after all elements are placed, no slot is left empty, so the `as T[]` cast is sound |
| Shuffle.ScatterAdds | main.ts:19-37 | the filled slots hold exactly the placed elements, as a multiset, added to what was there |
| Shuffle.Shuffled | main.ts:12-40 | the result has the input's length and is a permutation of it (same multiset) |
| Shuffle.ShuffleArray | main.ts:12-40 | the array loop with a shrinking free list computes the functional shuffle, so its result is a permutation of the input |
| Sets.QualifiedId | main.ts:120 | the set name, `/`, and the entry's id, with `Q` and the entry's index standing in for a missing id; its shape is stated by `Sets.QualifiedIdParts` |
| Sets.QualifiedIdParts | main.ts:120 | the id is the set name and `/`, then the entry's own id, or `Q` and the entry's index when it has none |
| Sets.FallbackIdsDistinct | main.ts:120 | entries without an id at different positions of one set get different ids |
| Sets.Named | main.ts:118-122 | every entry keeps its position and fields, with id `<set>/<id>`, or `<set>/Q<i>` when it has none |
| Sets.Reversed | main.ts:128-133 | the copy swaps question and answer, is flagged reversible, and its id is the original's with `_R` appended |
| Sets.ReversedTwice | main.ts:128-133 | reversing twice gives back the original question and answer, and a copy's id never equals its original's |
| Sets.Reversals | main.ts:126-135 | the copies of the flagged cards, in order; their count, places and origin are stated by `Sets.ReversalsLength`, `Sets.ReversalsAt` and `Sets.ReversalsFrom` |
| Sets.ReversalsLength | main.ts:126-135 | there is one copy per flagged entry |
| Sets.ReversalsAt | main.ts:126-135 | the copy of flagged entry `i` comes right after the copies of the flagged entries before it |
| Sets.ReversalsFrom | main.ts:126-135 | every copy is the swapped copy of some flagged entry |
| Sets.CopiesLayout | main.ts:124-135 | the originals followed by their copies have length n plus the flagged count; each copy sits at its place and is the swap of a flagged original |
| Sets.Expand | main.ts:118-137 | the expansion is the n named originals in order, then one swapped `_R` copy per reversible original in order, and nothing else |
| Sets.ExpandInPlace | main.ts:124-135 | the loop that appends to the array it walks, bounded by the length taken before it, computes exactly the expansion: copies are never expanded again |
| Sets.LoadSets | main.ts:110-140 | the joined data holds every card of every set's expansion |
| Sets.LoadSetsFrom | main.ts:110-140 | every card of the joined data comes from the expansion of one of the sets |
| Sets.LoadSetsSingle | main.ts:111-138 | one set loads as its own expansion |
| Sets.LoadSetsAppend | main.ts:110-140 | `.flat(1)` joins the sets in their order, each card once: loading two lists of sets is loading one, then the other |
| Store.LoadUser | main.ts:46-68 | no file gives empty progress at iteration 0; a file's missing iteration reads as 0 and its missing answered list as empty |
| Store.Upsert | main.ts:145-150 | assigning a question under its id keeps ids distinct; an existing id keeps its position and a new id is appended |
| Store.QuestionOf | main.ts:145-150 | the question keeps the card's id, question and answer, and takes the remembered rank, or 0 when the id is not remembered |
| Store.BuildQuestions | main.ts:144-152 | the table has distinct ids and each entry is a loaded card with its remembered rank, or rank 0 |
| Store.BuildQuestionsKeys | main.ts:144-150 | an id is in the table exactly when some loaded card carries it |
| Store.BuildQuestionsLast | main.ts:144-150 | the entry for an id comes from the last card carrying it: later duplicates overwrite earlier ones |
| Store.BuildQuestionsIds | main.ts:144-150 | the table's ids are the card ids without repeats, each at its first appearance (object key order) |
| Store.AllAnswers | main.ts:142-152 | every loaded answer is pooled, in card order, duplicates included |
| Store.Load | main.ts:101-152 | loading gives distinct ids, every loaded card's id among them, remembered ranks for known ids and rank 0 for new ones, and the pool holds each card's answer at the card's position |
| Store.Record | main.ts:155-156 | each loaded question's rank written into `known` under its id; stated by `Store.RecordKeys`, `Store.RecordRanks` and `Store.RecordOthers` |
| Store.RecordKeys | main.ts:155-156 | writing the ranks adds exactly the table's ids to the keys of `known` |
| Store.RecordRanks | main.ts:155-156 | after writing, every loaded question's rank, 0 included, is stored under its id |
| Store.RecordOthers | main.ts:155-156 | ids that were not loaded keep their stored rank |
| Store.Prune | main.ts:158 | the in-memory map keeps exactly its questions of non-zero rank |
| Store.PruneDistinct | main.ts:158 | pruning keeps ids distinct |
| Store.SaveData | main.ts:154-159 | the saved `known` has the old keys plus every loaded id, loaded ids map to current ranks, other ids are unchanged, and iteration and answered list are kept |
| Store.SaveDataIdempotent | main.ts:154-159 | saving the pruned table again leaves the saved progress as it was |
| Scheduler.IsDue | main.ts:171-173 | `iteration % 2 ** rank == 0`; characterised as "the iteration is a multiple of `2^rank`" by `Scheduler.DueIffMultiple` |
| Scheduler.DueRankZero | main.ts:171-173 | rank 0 is due every iteration |
| Scheduler.DueRankOne | main.ts:171-173 | rank 1 is due exactly in even iterations |
| Scheduler.DueRankTwo | main.ts:171-173 | rank 2 is due exactly in iterations divisible by 4 |
| Scheduler.DueAtStart | main.ts:171-173 | every rank is due in iteration 0 |
| Scheduler.DueIffMultiple | main.ts:171-173 | due means the iteration is a multiple of `2^rank` |
| Scheduler.DueAtLowerRank | main.ts:171-173 | whatever is due at a rank is due at every lower rank |
| Scheduler.DuePeriodic | main.ts:171-173 | the due pattern of a rank repeats every `2^rank` iterations |
| Scheduler.PromotedSkipsNext | main.ts:172 | a question of rank at least 1, promoted in an iteration where it was due, is not due in the next one |
| Scheduler.DueFrom | main.ts:170-174 | from a start position: only due indices, all of them, each once, in table order |
| Scheduler.DueIndices | main.ts:170-174 | the filtered list holds exactly the due questions' indices, each once, in table order |
| Scheduler.Resume | main.ts:175-177 | the remaining list holds exactly the listed questions whose id is not answered yet, and is no longer than the list |
| Scheduler.ResumeAppend | main.ts:175-177 | the filter distributes over concatenation, so the order is kept |
| Scheduler.ResumeNothingAnswered | main.ts:175-177 | with nothing answered, every due question remains |
| Scheduler.SkippedIsAnswered | main.ts:179-180 | the starting progress count is the number of due questions already answered |
| Scheduler.StartPass | main.ts:170-180 | the pass's list is a permutation of the due list; the queue is exactly the due, unanswered questions, filtered in shuffled order; progress plus queue length is the due count |
| Grader.ModeFor | main.ts:191-195 | multiple choice exactly below rank 2, with 4 options at rank 0 and 8 at rank 1; free response above |
| Grader.ChoiceOptions | main.ts:241-243 | exactly `min(count, |ranked|)` options are shown, and they are a permutation of the first that many ranked answers |
| Grader.AnswerShownIff | main.ts:241-243 | the answer is shown exactly when the ranking put it within the first `count` |
| Grader.MultipleChoiceVerdict | main.ts:250-254 | EXIT exactly on an aborted prompt; right exactly when the selection reads as an index of the options holding the answer; unreadable or out-of-range selections are wrong |
| Grader.ChoosingShownIndex | main.ts:247-254 | typing the number shown beside the answer is graded right |
| Grader.ChoosingOtherIndex | main.ts:247-254 | typing the number of another option is graded wrong |
| Grader.BlankSelectsFirst | main.ts:254 | a blank selection is right exactly when option 0 is the answer |
| Grader.FreeResponseVerdict | main.ts:264-280 | aborted is EXIT; exact is right with no confirmation; a mismatch below distance 3 asks and is wrong exactly when the confirmation declines; distance 3 or more is wrong with no confirmation |
| Grader.ConfirmationIffNearMiss | main.ts:268-272 | the confirmation is asked exactly for replies at distance 1 or 2 |
| Grader.CorrectWithoutConfirmation | main.ts:266-280 | without a confirmation, a reply is right exactly when it equals the answer |
| Grader.LengthGapIsWrong | main.ts:268-277 | a reply whose length differs from the answer's by 3 or more is wrong without a confirmation |
| Grader.NextRank | main.ts:205-206 | right moves the rank up by one; wrong moves it down by one, or keeps it at 0 |
| Grader.WrongUndoesCorrect | main.ts:205-206 | a wrong answer after a right one restores the rank |
| Grader.CorrectUndoesWrong | main.ts:205-206 | a right answer after a wrong one restores the rank exactly when it was above 0 |
| Session.Grade | main.ts:191-195 | ranks 0 and 1 are graded by the multiple-choice grader and higher ranks by the free-response grader; EXIT exactly on an aborted prompt; multiple choice is right only when the answer is among the options; free response is right on the exact answer and wrong at distance 3 or more |
| Session.GradeReadsItsMode | main.ts:191-195 | multiple choice never reads the confirmation and free response never reads the options |
| Session.Answer | main.ts:197-206 | EXIT saves the table and progress as they are and stops; otherwise the id is appended to the answered list, the answered question changes only in its rank, which moves by the verdict, no other question changes, and the queue advances |
| Session.RunPass | main.ts:182-217 | a pass that finishes has an empty queue, the same ids, the same `known` and iteration; a stopped pass saved the same iteration and every loaded id |
| Session.RunPassCompleted | main.ts:182-203 | a finished pass appended every queued id to the answered list, in queue order |
| Session.RunPassUntouched | main.ts:182-206 | a finished pass left every question outside its queue unchanged |
| Session.RunPassStopped | main.ts:197-203 | a pass stopped by EXIT saved the answered list extended by the ids of a proper prefix of the queue, in order |
| Session.NoAbortFinishesPass | main.ts:182-203 | when every prompt gets a reply, the pass reaches the end of its queue |
| Session.AbortFirstSavesAsIs | main.ts:197-201 | an aborted first prompt saves at once with nothing changed |
| Session.LastQuestionPass | main.ts:182-217 | with one question left, the pass ends with that question's outcome |
| Session.CompletePass | main.ts:219-220 | a finished pass empties the answered list and moves the iteration on by exactly one, touching nothing else |
| Session.AfterPass | main.ts:222-226 | the exit prompt saves and stops exactly on a reply starting with `y`/`Y`; otherwise the session goes on unchanged |
| Session.PassStart | main.ts:169-180 | a pass starts on the table and progress as they are, with the queue the shuffle and the resume filter give |
| Session.RunContinues | main.ts:169-227 | a pass that is not aborted, followed by any exit reply but yes, continues the loop from the completed state: answered list emptied, iteration one higher |
| Session.RunStopsInPass | main.ts:197-203 | an abort inside a pass ends the loop with that pass's save |
| Session.RunStopsAfterPass | main.ts:218-226 | a finished pass followed by yes saves the completed state, with iteration one higher and an empty answered list, and ends the loop |
| Session.Run | main.ts:169-227 | the loop never loses ranks or ids: a running session keeps `known` and never decreases the iteration; a save covers every loaded id |
| Session.ScenarioQueue | main.ts:170-180 | in iteration 0 a single new question is due and queued |
| Session.ScenarioGrade | main.ts:191-192 | a rank-0 question whose answer is option 0, with option 0 typed, is graded right |
| Session.ScenarioAnswer | main.ts:203-206 | a right answer to the only queued question raises its rank by one, records its id and empties the queue |
| Session.ScenarioPass | main.ts:182-217 | a right answer to a pass's only question promotes it and ends the pass |
| Session.ScenarioSave | main.ts:222-225 | quitting after the pass saves the promoted rank under the question's id |
| Session.FirstIterationScenario | main.ts:169-227 | a first session with one new question, answered right and then quit, saves rank 1, iteration 1 and an empty answered list |

## Left out

- File I/O is not modelled: creating, reading and writing `user.json` (main.ts:46-68, 161-164), the walk of `./sets` (main.ts:72-80) and reading set files (main.ts:113-116). Parsed JSON is given as datatypes (`Store.StoredUser`, `Sets.SetFile`).
- A `user.json` without a `known` field makes the source fail on first use; the model's `known` is always present.
- Ranks are natural numbers. Negative or fractional ranks read from a hand-edited `user.json` are not modelled.
- The command-line `RegExp` filter on set paths (main.ts:82-86) is a foreign regex engine and is left out. The model takes the chosen sets as input.
- Pretty names, console output, colours, `sleep` and the progress percentage (main.ts:88-99, 183-189, 208-216) are presentation. The percentage is also floating point. The progress counter's starting value is modelled (`Scheduler.StartPass`).
- Session.Grade: the option count that `Grader.ModeFor` gives (4 at rank 0, 8 at rank 1; main.ts:192-193, 243) is not tied to `Input.options`. A session's inputs may carry any number of options, and `Grader.ChoiceOptions` states the count separately.
- `wordSimilaritySort` (main.ts:241) is foreign. The options shown are an input, and `Grader.ChoiceOptions` models only the slice and the shuffle.
- `levenshteinDistance` is given the standard recursive definition. The library's internals are not modelled.
- EditDistance.Distance: counts Unicode code points, while JavaScript strings and `levenshteinDistance` count UTF-16 code units. A character outside the Basic Multilingual Plane counts 2 in the source and 1 in the model. For the answer `"a"` and the reply `"a😀😀"` the source's distance is 4, so the reply is wrong with no confirmation (main.ts:271, 276). The model's distance is 2, so it asks for the confirmation. The model agrees with the source on replies and answers made of Basic Multilingual Plane characters.
- `Math.random` is replaced by explicit oracle sequences.
- The `Promise.all` concurrency of loading is not modelled. Its result order is the order of the sets, which `Sets.LoadSets` keeps.
- `Text.ToLower` lowers ASCII letters only. Only its comparison with `n` and `y` matters, and no other character lowers to either.
- Text.ParseSelection: models only the whitespace-trimmed decimal-digit subset of JavaScript's `+selection`. Forms that `+` also reads as an option index, such as `1.0`, `+1`, `0x1` or `1e0`, read as unparsable, and a pick of them is graded wrong. `Grader.MultipleChoiceVerdict` inherits this.
- Session.Run: the source loops until a save. The model follows a finite list of passes. It reports the session as still running when the passes run out, or when a pass's shuffle picks do not fit its number of due questions. Its stopped case states only the iteration bound and the saved key set. The step from one pass to the next is stated by `Session.RunContinues`, `Session.RunStopsInPass` and `Session.RunStopsAfterPass`; the exact saved content by `Session.Answer`, `Session.AfterPass` and `Store.SaveData`.
- Session.RunPass: it states the `known` map and iteration of a finished pass, but not its ranks. Rank changes are stated per question by `Session.Answer`, and untouched questions by `Session.RunPassUntouched`.

=== FILE: edit_distance.dfy ===
/** The Levenshtein edit distance the free-response grader uses to spot near
    misses: the least number of single-character insertions, deletions and
    substitutions turning one string into the other. */
module EditDistance {

  function Min3(x: nat, y: nat, z: nat): (m: nat)
    ensures m <= x && m <= y && m <= z
    ensures m == x || m == y || m == z
  {
    if x <= y && x <= z then x else if y <= z then y else z
  }

  /** The standard recursive definition, peeling the first character off either string. */
  function Distance(a: string, b: string): (d: nat)
    ensures d <= |a| + |b|
    decreases |a| + |b|
  {
    if |a| == 0 then |b|
    else if |b| == 0 then |a|
    else Min3(
      Distance(a[1..], b[1..]) + (if a[0] == b[0] then 0 else 1),
      Distance(a[1..], b) + 1,
      Distance(a, b[1..]) + 1)
  }

  /** A string is at distance 0 from itself. */
  lemma {:induction false} DistanceSelf(a: string)
    ensures Distance(a, a) == 0
  {
    if |a| > 0 {
      DistanceSelf(a[1..]);
    }
  }

  /** Distance 0 means the strings are equal. */
  lemma {:induction false} DistanceZero(a: string, b: string)
    requires Distance(a, b) == 0
    ensures a == b
    decreases |a| + |b|
  {
    if |a| > 0 && |b| > 0 {
      DistanceZero(a[1..], b[1..]);
      assert a == [a[0]] + a[1..];
      assert b == [b[0]] + b[1..];
    }
  }

  /** The distance is zero exactly between equal strings. */
  lemma DistanceZeroIff(a: string, b: string)
    ensures Distance(a, b) == 0 <==> a == b
  {
    if a == b {
      DistanceSelf(a);
    } else if Distance(a, b) == 0 {
      DistanceZero(a, b);
    }
  }

  /** The distance is at least the difference in length. */
  lemma {:induction false} DistanceLengthGap(a: string, b: string)
    ensures Distance(a, b) + |b| >= |a|
    ensures Distance(a, b) + |a| >= |b|
    decreases |a| + |b|
  {
    if |a| > 0 && |b| > 0 {
      DistanceLengthGap(a[1..], b[1..]);
      DistanceLengthGap(a[1..], b);
      DistanceLengthGap(a, b[1..]);
    }
  }

  /** The distance never exceeds the longer length. */
  lemma {:induction false} DistanceAtMostLonger(a: string, b: string)
    ensures Distance(a, b) <= if |a| >= |b| then |a| else |b|
    decreases |a| + |b|
  {
    if |a| > 0 && |b| > 0 {
      DistanceAtMostLonger(a[1..], b[1..]);
    }
  }
}

=== FILE: grader.dfy ===
/** Grading one answer: the mode a question's rank selects, the two graders,
    and the rank update a verdict causes. */
module Grader {
  import opened Text
  import opened EditDistance
  import opened Shuffle

  /** `Q_RESP`. */
  datatype Verdict = Correct | Wrong | Exit

  /** How a question is presented: multiple choice with `count` options, or free response. */
  datatype Mode = MultipleChoice(count: nat) | FreeResponse

  /** Rank 0 gets four options, rank 1 gets eight, higher ranks are typed in. */
  function ModeFor(rank: nat): (m: Mode)
    ensures m.MultipleChoice? <==> rank < 2
    ensures m.MultipleChoice? ==> m.count == 4 * (rank + 1)
  {
    if rank == 0 then MultipleChoice(4)
    else if rank == 1 then MultipleChoice(8)
    else FreeResponse
  }

  /** The options shown: the first `count` answers of the similarity ranking
      (computed outside this model), shuffled with the given picks. */
  function ChoiceOptions(ranked: seq<string>, count: nat, oracle: seq<nat>): (options: seq<string>)
    requires ValidOracle(oracle, if count < |ranked| then count else |ranked|)
    ensures |options| == if count < |ranked| then count else |ranked|
    ensures multiset(options) == multiset(ranked[..|options|])
  {
    Shuffled(ranked[..if count < |ranked| then count else |ranked|], oracle)
  }

  /** The correct answer is among the options exactly when the ranking put it
      within the first `count`; nothing forces it to. */
  lemma AnswerShownIff(ranked: seq<string>, count: nat, oracle: seq<nat>, answer: string)
    requires ValidOracle(oracle, if count < |ranked| then count else |ranked|)
    ensures var n := if count < |ranked| then count else |ranked|;
      answer in ChoiceOptions(ranked, count, oracle) <==> answer in ranked[..n]
  {
    var n := if count < |ranked| then count else |ranked|;
    var options := ChoiceOptions(ranked, count, oracle);
    assert answer in options <==> answer in multiset(options);
    assert answer in ranked[..n] <==> answer in multiset(ranked[..n]);
  }

  /** `multiple_choice` after the options are shown: an aborted prompt exits;
      otherwise the answer is right exactly when the selection denotes an
      index of the options and the option there is the correct answer. */
  function MultipleChoiceVerdict(options: seq<string>, answer: string, selection: Option<string>): (v: Verdict)
    ensures selection.None? <==> v == Exit
    ensures v == Correct <==>
      (selection.Some? && ParseSelection(selection.value).Some? &&
       ParseSelection(selection.value).value < |options| &&
       options[ParseSelection(selection.value).value] == answer)
    ensures v == Correct ==> answer in options
    ensures selection.Some? && ParseSelection(selection.value).None? ==> v == Wrong
    ensures (selection.Some? && ParseSelection(selection.value).Some? &&
             ParseSelection(selection.value).value >= |options|) ==> v == Wrong
  {
    match selection
    case None => Exit
    case Some(s) =>
      match ParseSelection(s)
      case Some(k) => if k < |options| && options[k] == answer then Correct else Wrong
      case None => Wrong
  }

  /** Typing the number shown beside the correct answer is graded right. */
  lemma ChoosingShownIndex(options: seq<string>, answer: string, k: nat)
    requires k < |options| && options[k] == answer
    ensures MultipleChoiceVerdict(options, answer, Some(NatToString(k))) == Correct
  {
    ParseSelectionOfIndex(k);
  }

  /** Typing the number of an option that is not the correct answer is graded wrong. */
  lemma ChoosingOtherIndex(options: seq<string>, answer: string, k: nat)
    requires k < |options| && options[k] != answer
    ensures MultipleChoiceVerdict(options, answer, Some(NatToString(k))) == Wrong
  {
    ParseSelectionOfIndex(k);
  }

  /** A blank selection reads as option 0. */
  lemma BlankSelectsFirst(options: seq<string>, answer: string)
    ensures MultipleChoiceVerdict(options, answer, Some("")) == Correct <==>
      |options| > 0 && options[0] == answer
  {
  }

  /** The free-response verdict, and whether the confirmation prompt was shown. */
  datatype Graded = Graded(verdict: Verdict, confirmationAsked: bool)

  /** `free_resp`: an aborted prompt exits; the exact answer is right; a
      response within edit distance 2 is right unless the user declines the
      confirmation; anything further away is wrong. `confirmation` is the
      reply to the confirmation prompt, read only when it is shown. */
  function FreeResponseVerdict(answer: string, selection: Option<string>, confirmation: Option<string>): (g: Graded)
    ensures selection.None? ==> g == Graded(Exit, false)
    ensures selection == Some(answer) ==> g == Graded(Correct, false)
    ensures selection.Some? && selection.value != answer && Distance(selection.value, answer) < 3 ==>
      g.confirmationAsked && (g.verdict == Wrong <==> Declines(confirmation)) && g.verdict != Exit
    ensures selection.Some? && Distance(selection.value, answer) >= 3 ==> g == Graded(Wrong, false)
  {
    match selection
    case None => Graded(Exit, false)
    case Some(s) =>
      if s != answer then
        if Distance(s, answer) < 3 then
          Graded(if Declines(confirmation) then Wrong else Correct, true)
        else
          Graded(Wrong, false)
      else
        DistanceSelf(s);
        Graded(Correct, false)
  }

  /** The confirmation is shown exactly for near misses: responses at edit
      distance 1 or 2. */
  lemma ConfirmationIffNearMiss(answer: string, selection: Option<string>, confirmation: Option<string>)
    ensures FreeResponseVerdict(answer, selection, confirmation).confirmationAsked <==>
      selection.Some? && 1 <= Distance(selection.value, answer) <= 2
  {
    if selection.Some? {
      DistanceZeroIff(selection.value, answer);
    }
  }

  /** Without a confirmation, a response is right only when it is exact. */
  lemma CorrectWithoutConfirmation(answer: string, selection: Option<string>, confirmation: Option<string>)
    requires !FreeResponseVerdict(answer, selection, confirmation).confirmationAsked
    ensures FreeResponseVerdict(answer, selection, confirmation).verdict == Correct <==> selection == Some(answer)
  {
    if selection.Some? && selection.value != answer {
      DistanceZeroIff(selection.value, answer);
    }
  }

  /** A response whose length differs from the answer's by three or more is
      wrong without any confirmation. */
  lemma LengthGapIsWrong(answer: string, s: string, confirmation: Option<string>)
    requires |s| >= |answer| + 3 || |answer| >= |s| + 3
    ensures FreeResponseVerdict(answer, Some(s), confirmation) == Graded(Wrong, false)
  {
    DistanceLengthGap(s, answer);
  }

  /** The rank after a non-exit verdict: one up when right, one down when
      wrong, never below 0. */
  function NextRank(rank: nat, v: Verdict): (r: nat)
    requires v != Exit
    ensures v == Correct ==> r == rank + 1
    ensures v == Wrong ==> r + 1 == rank || (rank == 0 && r == 0)
  {
    var stepped := rank + (if v == Correct then 1 else -1);
    if stepped < 0 then 0 else stepped
  }

  /** A wrong answer undoes a right one. */
  lemma WrongUndoesCorrect(rank: nat)
    ensures NextRank(NextRank(rank, Correct), Wrong) == rank
  {
  }

  /** A right answer undoes a wrong one, except at the rank-0 floor. */
  lemma CorrectUndoesWrong(rank: nat)
    ensures NextRank(NextRank(rank, Wrong), Correct) == rank <==> rank > 0
  {
  }
}

=== FILE: scheduler.dfy ===
/** Which questions an iteration asks: the spacing rule, the random order,
    and the resume filter that skips what was answered before an
    interruption. Questions are referred to by their index in the table. */
module Scheduler {
  import opened Store
  import opened Shuffle

  function Pow2(n: nat): (p: nat)
    ensures p >= 1
  {
    if n == 0 then 1 else 2 * Pow2(n - 1)
  }

  /** A question of rank `rank` is due in iteration `iteration` when
      `iteration % 2 ** rank == 0`. */
  predicate IsDue(iteration: nat, rank: nat)
  {
    iteration % Pow2(rank) == 0
  }

  /** Rank 0 is due every iteration. */
  lemma DueRankZero(iteration: nat)
    ensures IsDue(iteration, 0)
  {
  }

  /** Rank 1 is due every second iteration. */
  lemma DueRankOne(iteration: nat)
    ensures IsDue(iteration, 1) <==> iteration % 2 == 0
  {
    assert Pow2(1) == 2;
  }

  /** Rank 2 is due every fourth iteration. */
  lemma DueRankTwo(iteration: nat)
    ensures IsDue(iteration, 2) <==> iteration % 4 == 0
  {
    assert Pow2(2) == 4;
  }

  /** Everything is due in the very first iteration. */
  lemma DueAtStart(rank: nat)
    ensures IsDue(0, rank)
  {
  }

  lemma {:induction false} MulAtLeast(a: int, d: int)
    requires a >= 1 && d >= 1
    ensures a * d >= d
    decreases a
  {
    if a > 1 {
      MulAtLeast(a - 1, d);
      assert a * d == (a - 1) * d + d;
    }
  }

  /** Division by a positive divisor has one quotient and one remainder. */
  lemma DivModUnique(x: int, d: int, q: int, r: int)
    requires d > 0 && 0 <= r < d && x == q * d + r
    ensures x / d == q && x % d == r
  {
    var q', r' := x / d, x % d;
    assert x == q' * d + r';
    if q' != q {
      var e := q' - q;
      assert q' * d == q * d + e * d;
      if e > 0 {
        MulAtLeast(e, d);
      } else {
        MulAtLeast(-e, d);
      }
    }
  }

  /** Due means the iteration is a multiple of `2 ** rank`. */
  lemma DueIffMultiple(iteration: nat, rank: nat)
    ensures IsDue(iteration, rank) <==> exists m: nat :: iteration == m * Pow2(rank)
  {
    var p := Pow2(rank);
    if IsDue(iteration, rank) {
      var m: nat := iteration / p;
      assert iteration == m * Pow2(rank);
    } else if m: nat :| iteration == m * p {
      DivModUnique(iteration, p, m, 0);
      assert false;
    }
  }

  /** A question due at some rank is due at every lower rank: promotion only
      ever thins out the iterations a question is asked in. */
  lemma {:induction false} DueAtLowerRank(iteration: nat, rank: nat, lower: nat)
    requires lower <= rank
    requires IsDue(iteration, rank)
    ensures IsDue(iteration, lower)
  {
    DueIffMultiple(iteration, rank);
    var m: nat :| iteration == m * Pow2(rank);
    PowSplit(rank, lower);
    var k: nat := Pow2(rank - lower);
    assert iteration == (m * k) * Pow2(lower);
    DueIffMultiple(iteration, lower);
  }

  lemma {:induction false} PowSplit(rank: nat, lower: nat)
    requires lower <= rank
    ensures Pow2(rank) == Pow2(rank - lower) * Pow2(lower)
    decreases rank
  {
    if lower < rank {
      PowSplit(rank - 1, lower);
      assert rank - lower == (rank - 1 - lower) + 1;
    }
  }

  /** The due pattern of a rank repeats every `2 ** rank` iterations. */
  lemma DuePeriodic(iteration: nat, rank: nat)
    ensures IsDue(iteration + Pow2(rank), rank) <==> IsDue(iteration, rank)
  {
    var p := Pow2(rank);
    DivModUnique(iteration + p, p, iteration / p + 1, iteration % p);
  }

  /** A question promoted from rank 1 or more in an iteration where it was
      due is not due in the next iteration: promotion spaces it out. */
  lemma PromotedSkipsNext(iteration: nat, rank: nat)
    requires rank >= 1 && IsDue(iteration, rank)
    ensures !IsDue(iteration + 1, rank + 1)
  {
    DueAtLowerRank(iteration, rank, 1);
    DueRankOne(iteration);
    DueRankOne(iteration + 1);
    if IsDue(iteration + 1, rank + 1) {
      DueAtLowerRank(iteration + 1, rank + 1, 1);
      assert false;
    }
  }

  /** Indices of the due questions from position `from` on, in table order. */
  function DueFrom(table: seq<Question>, iteration: nat, from: nat): (r: seq<nat>)
    requires from <= |table|
    ensures forall k :: 0 <= k < |r| ==> from <= r[k] < |table| && IsDue(iteration, table[r[k]].rank)
    ensures forall i :: from <= i < |table| && IsDue(iteration, table[i].rank) ==> i in r
    ensures forall k, l :: 0 <= k < l < |r| ==> r[k] < r[l]
    decreases |table| - from
  {
    if from == |table| then []
    else
      var rest := DueFrom(table, iteration, from + 1);
      if IsDue(iteration, table[from].rank) then [from] + rest else rest
  }

  /** `Object.values(questions).filter(due)`: the due questions' indices, each
      once, in table order, and no others. */
  function DueIndices(table: seq<Question>, iteration: nat): (r: seq<nat>)
    ensures forall k :: 0 <= k < |r| ==> r[k] < |table| && IsDue(iteration, table[r[k]].rank)
    ensures forall i :: 0 <= i < |table| && IsDue(iteration, table[i].rank) ==> i in r
    ensures forall k, l :: 0 <= k < l < |r| ==> r[k] < r[l]
  {
    DueFrom(table, iteration, 0)
  }

  predicate InTable(table: seq<Question>, order: seq<nat>)
  {
    forall k :: 0 <= k < |order| ==> order[k] < |table|
  }

  /** The resume filter: the questions of `order` whose id was not already
      answered in this iteration, order kept. */
  function Resume(table: seq<Question>, order: seq<nat>, answered: seq<string>): (r: seq<nat>)
    requires InTable(table, order)
    ensures forall i :: i in r <==> i in order && table[i].id !in answered
    ensures |r| <= |order|
    ensures InTable(table, r)
  {
    if |order| == 0 then []
    else
      var rest := Resume(table, order[1..], answered);
      assert forall i :: i in order <==> i == order[0] || i in order[1..];
      if table[order[0]].id in answered then rest else [order[0]] + rest
  }

  /** The filter distributes over concatenation, which is what "order kept" means. */
  lemma {:induction false} ResumeAppend(table: seq<Question>, a: seq<nat>, b: seq<nat>, answered: seq<string>)
    requires InTable(table, a) && InTable(table, b)
    ensures Resume(table, a + b, answered) == Resume(table, a, answered) + Resume(table, b, answered)
  {
    if |a| > 0 {
      assert (a + b)[1..] == a[1..] + b;
      ResumeAppend(table, a[1..], b, answered);
    } else {
      assert a + b == b;
    }
  }

  /** With nothing answered yet, every due question is asked. */
  lemma {:induction false} ResumeNothingAnswered(table: seq<Question>, order: seq<nat>)
    requires InTable(table, order)
    ensures Resume(table, order, []) == order
  {
    if |order| > 0 {
      ResumeNothingAnswered(table, order[1..]);
    }
  }

  /** How many questions of `order` were already answered. */
  function CountAnswered(table: seq<Question>, order: seq<nat>, answered: seq<string>): nat
    requires InTable(table, order)
  {
    if |order| == 0 then 0
    else (if table[order[0]].id in answered then 1 else 0) + CountAnswered(table, order[1..], answered)
  }

  /** The starting progress count, `|all| - |remaining|`, is the number of due
      questions already answered. */
  lemma {:induction false} SkippedIsAnswered(table: seq<Question>, order: seq<nat>, answered: seq<string>)
    requires InTable(table, order)
    ensures |order| - |Resume(table, order, answered)| == CountAnswered(table, order, answered)
  {
    if |order| > 0 {
      SkippedIsAnswered(table, order[1..], answered);
    }
  }

  /** Sequences with the same multiset have the same members. */
  lemma SameMembers(a: seq<nat>, b: seq<nat>)
    requires multiset(a) == multiset(b)
    ensures forall i :: i in a <==> i in b
  {
    forall i
      ensures i in a <==> i in b
    {
      assert i in a <==> i in multiset(a);
      assert i in b <==> i in multiset(b);
    }
  }

  /** One pass as it starts: all due questions in shuffled order, those still
      to ask, and the progress counter's starting value. */
  datatype Pass = Pass(all: seq<nat>, queue: seq<nat>, progress: nat)

  /** Start of a pass: the due questions are shuffled with the given picks,
      the already-answered ones are filtered out, and progress starts at the
      number filtered out. */
  function StartPass(table: seq<Question>, user: UserData, oracle: seq<nat>): (p: Pass)
    requires ValidOracle(oracle, |DueIndices(table, user.iteration)|)
    ensures multiset(p.all) == multiset(DueIndices(table, user.iteration))
    ensures InTable(table, p.all) && InTable(table, p.queue)
    ensures p.queue == Resume(table, p.all, user.answered)
    ensures p.progress + |p.queue| == |p.all| && p.progress <= |p.all|
    ensures forall i :: i in p.queue <==>
      0 <= i < |table| && IsDue(user.iteration, table[i].rank) && table[i].id !in user.answered
  {
    var due := DueIndices(table, user.iteration);
    var all: seq<nat> := Shuffled(due, oracle);
    SameMembers(all, due);
    assert InTable(table, all) by {
      forall k | 0 <= k < |all|
        ensures all[k] < |table|
      {
        assert all[k] in due;
      }
    }
    var queue := Resume(table, all, user.answered);
    forall i
      ensures i in queue <==>
        0 <= i < |table| && IsDue(user.iteration, table[i].rank) && table[i].id !in user.answered
    {
      if i in queue {
        assert i in due;
        var k :| 0 <= k < |due| && due[k] == i;
      }
    }
    Pass(all, queue, |all| - |queue|)
  }
}

=== FILE: session.dfy ===
/** The study loop of `main`: each pass asks the due questions not yet
    answered, grading each reply and updating its rank; an aborted prompt
    saves and stops; a finished pass clears the answered list, advances the
    iteration and asks whether to stop. */
module Session {
  import opened Text
  import opened Store
  import opened Shuffle
  import opened Scheduler
  import opened Grader

  /** What the user and the similarity ranking supply for one question: the
      options shown (multiple choice only), the reply to the question prompt,
      and the reply to the confirmation prompt (free response near misses only). */
  datatype Input = Input(options: seq<string>, reply: Option<string>, confirmation: Option<string>)

  /** Once the supplied replies run out, every prompt reads as aborted. */
  const EndOfInput: Input := Input([], None, None)

  /** The verdict for one question, in the mode its current rank selects. */
  function Grade(q: Question, input: Input): (v: Verdict)
    ensures v == Exit <==> input.reply.None?
    ensures q.rank < 2 && v == Correct ==> q.answer in input.options
    ensures q.rank >= 2 && input.reply == Some(q.answer) ==> v == Correct
    ensures (q.rank >= 2 && input.reply.Some? &&
             EditDistance.Distance(input.reply.value, q.answer) >= 3) ==> v == Wrong
    ensures q.rank < 2 ==> v == MultipleChoiceVerdict(input.options, q.answer, input.reply)
    ensures q.rank >= 2 ==> v == FreeResponseVerdict(q.answer, input.reply, input.confirmation).verdict
  {
    match ModeFor(q.rank)
    case MultipleChoice(_) => MultipleChoiceVerdict(input.options, q.answer, input.reply)
    case FreeResponse => FreeResponseVerdict(q.answer, input.reply, input.confirmation).verdict
  }

  /** The multiple-choice modes never read the confirmation reply, and free
      response never reads the options. */
  lemma GradeReadsItsMode(q: Question, input: Input, options: seq<string>, confirmation: Option<string>)
    ensures q.rank < 2 ==> Grade(q, input.(confirmation := confirmation)) == Grade(q, input)
    ensures q.rank >= 2 ==> Grade(q, input.(options := options)) == Grade(q, input)
  {
  }

  /** The running state: the question table, the progress record (whose
      answered list is the one the loop appends to), and the questions of
      the current pass still to ask, by table index. */
  datatype Session = Session(table: seq<Question>, user: UserData, queue: seq<nat>)

  predicate Valid(s: Session)
  {
    DistinctIds(s.table) && InTable(s.table, s.queue)
  }

  /** Either the session was saved and the program returned, or it goes on. */
  datatype Step = Stopped(saved: Saved) | Running(session: Session)

  /** Same ids at the same positions: rank updates never touch ids. */
  predicate SameIds(t: seq<Question>, u: seq<Question>)
  {
    |t| == |u| && forall j :: 0 <= j < |t| ==> t[j].id == u[j].id
  }

  lemma SameIdsTrans(t: seq<Question>, u: seq<Question>, w: seq<Question>)
    requires SameIds(t, u) && SameIds(u, w)
    ensures SameIds(t, w)
  {
  }

  /** The ids of the queued questions, in queue order. */
  function QueueIds(table: seq<Question>, queue: seq<nat>): (ids: seq<string>)
    requires InTable(table, queue)
    ensures |ids| == |queue|
    ensures forall k :: 0 <= k < |queue| ==> ids[k] == table[queue[k]].id
  {
    seq(|queue|, k requires 0 <= k < |queue| => table[queue[k]].id)
  }

  /** Handling one verdict for the question at the head of the queue. On
      EXIT: save and stop, with ranks and the answered list as they are. On
      a grade: the id is appended to the answered list and the rank moves,
      nothing else changes. */
  function Answer(s: Session, v: Verdict): (r: Step)
    requires Valid(s) && |s.queue| > 0
    ensures r.Stopped? <==> v == Exit
    ensures r.Stopped? ==> r.saved == SaveData(s.table, s.user)
    ensures r.Stopped? ==> r.saved.user.answered == s.user.answered && r.saved.user.iteration == s.user.iteration
    ensures r.Running? ==> Valid(r.session) && SameIds(r.session.table, s.table)
    ensures r.Running? ==> r.session.queue == s.queue[1..]
    ensures r.Running? ==>
      r.session.user == s.user.(answered := s.user.answered + [s.table[s.queue[0]].id])
    ensures r.Running? ==>
      r.session.table[s.queue[0]] == s.table[s.queue[0]].(rank := NextRank(s.table[s.queue[0]].rank, v))
    ensures r.Running? ==> forall j :: 0 <= j < |s.table| && j != s.queue[0] ==> r.session.table[j] == s.table[j]
  {
    var i := s.queue[0];
    if v == Exit then
      Stopped(SaveData(s.table, s.user))
    else
      var q := s.table[i];
      var table := s.table[i := q.(rank := NextRank(q.rank, v))];
      assert forall j :: 0 <= j < |table| ==> table[j].id == s.table[j].id;
      Running(Session(table, s.user.(answered := s.user.answered + [q.id]), s.queue[1..]))
  }

  /** Appending the head's id and then the ids of the first `k` of the tail,
      whatever ranks changed in between, appends the ids of the first `k + 1`. */
  lemma QueueIdsCons(prefix: seq<string>, table: seq<Question>, table': seq<Question>, queue: seq<nat>, k: nat)
    requires InTable(table, queue) && SameIds(table', table)
    requires 0 < |queue| && k < |queue|
    ensures (prefix + [table[queue[0]].id]) + QueueIds(table', queue[1..][..k]) ==
      prefix + QueueIds(table, queue[..k + 1])
  {
    assert queue[..k + 1][1..] == queue[1..][..k];
    assert QueueIds(table, queue[..k + 1]) == [table[queue[0]].id] + QueueIds(table', queue[1..][..k]);
  }

  /** The inner loop over the pass's queue: ask the head, handle the verdict,
      go on with the rest until the queue is empty or an EXIT stops it. */
  function RunPass(s: Session, inputs: seq<Input>): (r: Step)
    requires Valid(s)
    ensures r.Running? ==> Valid(r.session) && r.session.queue == [] && SameIds(r.session.table, s.table)
    ensures r.Running? ==> r.session.user.known == s.user.known && r.session.user.iteration == s.user.iteration
    ensures r.Stopped? ==> r.saved.user.iteration == s.user.iteration
    ensures r.Stopped? ==> r.saved.user.known.Keys == s.user.known.Keys + KeySet(s.table)
    decreases |s.queue|
  {
    if |s.queue| == 0 then Running(s)
    else
      var input := if |inputs| > 0 then inputs[0] else EndOfInput;
      var step := Answer(s, Grade(s.table[s.queue[0]], input));
      if step.Stopped? then step
      else
        var r := RunPass(step.session, if |inputs| > 0 then inputs[1..] else []);
        if r.Running? then
          SameIdsTrans(r.session.table, step.session.table, s.table);
          r
        else
          SameIdsKeySet(step.session.table, s.table);
          r
  }

  /** A pass that reaches the end of its queue has appended every queued id to
      the answered list, in queue order. */
  lemma {:induction false} RunPassCompleted(s: Session, inputs: seq<Input>)
    requires Valid(s) && RunPass(s, inputs).Running?
    ensures RunPass(s, inputs).session.user.answered == s.user.answered + QueueIds(s.table, s.queue)
    decreases |s.queue|
  {
    if |s.queue| > 0 {
      var input := if |inputs| > 0 then inputs[0] else EndOfInput;
      var step := Answer(s, Grade(s.table[s.queue[0]], input));
      var next := step.session;
      var rest := if |inputs| > 0 then inputs[1..] else [];
      assert RunPass(s, inputs) == RunPass(next, rest);
      RunPassCompleted(next, rest);
      assert step.Running?;
      assert next.user.answered == s.user.answered + [s.table[s.queue[0]].id];
      assert next.queue == s.queue[1..][..|s.queue| - 1];
      QueueIdsCons(s.user.answered, s.table, next.table, s.queue, |s.queue| - 1);
      assert s.queue[..|s.queue|] == s.queue;
    }
  }

  /** A completed pass leaves every question outside its queue alone. */
  lemma {:induction false} RunPassUntouched(s: Session, inputs: seq<Input>, j: nat)
    requires Valid(s) && RunPass(s, inputs).Running?
    requires j < |s.table| && j !in s.queue
    ensures RunPass(s, inputs).session.table[j] == s.table[j]
    decreases |s.queue|
  {
    if |s.queue| > 0 {
      var input := if |inputs| > 0 then inputs[0] else EndOfInput;
      var step := Answer(s, Grade(s.table[s.queue[0]], input));
      var next := step.session;
      var rest := if |inputs| > 0 then inputs[1..] else [];
      assert RunPass(s, inputs) == RunPass(next, rest);
      assert j !in next.queue && j != s.queue[0];
      RunPassUntouched(next, rest, j);
    }
  }

  /** `after` extends `before` with the ids of a prefix of `queue` that
      leaves at least its last element out. */
  predicate AnsweredPrefix(before: seq<string>, after: seq<string>, table: seq<Question>, queue: seq<nat>)
    requires InTable(table, queue)
  {
    |before| <= |after| < |before| + |queue| &&
    after == before + QueueIds(table, queue[..|after| - |before|])
  }

  /** Nothing answered is the empty prefix. */
  lemma AnsweredPrefixEmpty(before: seq<string>, table: seq<Question>, queue: seq<nat>)
    requires InTable(table, queue) && 0 < |queue|
    ensures AnsweredPrefix(before, before, table, queue)
  {
    assert QueueIds(table, queue[..0]) == [];
    assert before + [] == before;
  }

  /** Answering the head first and then a prefix of the tail answers a prefix
      of the whole queue. */
  lemma AnsweredPrefixCons(before: seq<string>, after: seq<string>, table: seq<Question>, table': seq<Question>, queue: seq<nat>)
    requires InTable(table, queue) && SameIds(table', table) && 0 < |queue|
    requires AnsweredPrefix(before + [table[queue[0]].id], after, table', queue[1..])
    ensures AnsweredPrefix(before, after, table, queue)
  {
    var k := |after| - |before| - 1;
    QueueIdsCons(before, table, table', queue, k);
  }

  /** A pass stopped by an EXIT saves with the answered list extended by the
      ids of the questions answered before the EXIT, in the order they were
      asked; the question that got the EXIT is not among them. */
  lemma {:induction false} RunPassStopped(s: Session, inputs: seq<Input>)
    requires Valid(s) && RunPass(s, inputs).Stopped?
    ensures AnsweredPrefix(s.user.answered, RunPass(s, inputs).saved.user.answered, s.table, s.queue)
    decreases |s.queue|
  {
    var input := if |inputs| > 0 then inputs[0] else EndOfInput;
    var step := Answer(s, Grade(s.table[s.queue[0]], input));
    if step.Stopped? {
      assert RunPass(s, inputs) == step;
      AnsweredPrefixEmpty(s.user.answered, s.table, s.queue);
    } else {
      var next := step.session;
      var rest := if |inputs| > 0 then inputs[1..] else [];
      assert RunPass(s, inputs) == RunPass(next, rest);
      RunPassStopped(next, rest);
      assert next.user.answered == s.user.answered + [s.table[s.queue[0]].id];
      assert next.queue == s.queue[1..];
      AnsweredPrefixCons(s.user.answered, RunPass(next, rest).saved.user.answered, s.table, next.table, s.queue);
    }
  }

  /** When every prompt of the pass gets a reply, the pass runs to the end of its queue. */
  lemma {:induction false} NoAbortFinishesPass(s: Session, inputs: seq<Input>)
    requires Valid(s)
    requires |inputs| >= |s.queue|
    requires forall k :: 0 <= k < |inputs| ==> inputs[k].reply.Some?
    ensures RunPass(s, inputs).Running?
    decreases |s.queue|
  {
    if |s.queue| > 0 {
      var next := Answer(s, Grade(s.table[s.queue[0]], inputs[0])).session;
      NoAbortFinishesPass(next, inputs[1..]);
    }
  }

  /** An aborted first prompt saves at once, with nothing answered. */
  lemma AbortFirstSavesAsIs(s: Session, inputs: seq<Input>)
    requires Valid(s) && |s.queue| > 0
    requires |inputs| == 0 || inputs[0].reply.None?
    ensures RunPass(s, inputs) == Stopped(SaveData(s.table, s.user))
  {
  }

  /** A finished pass: the answered list is emptied and the iteration counter
      moves on by exactly one; ranks and the remembered map are untouched. */
  function CompletePass(s: Session): (r: Session)
    requires Valid(s) && s.queue == []
    ensures Valid(r)
    ensures r.user.answered == [] && r.user.iteration == s.user.iteration + 1
    ensures r.user.known == s.user.known && r.table == s.table && r.queue == []
  {
    s.(user := s.user.(answered := [], iteration := s.user.iteration + 1))
  }

  /** The end-of-iteration prompt: a reply starting with `y` or `Y` saves and
      stops, any other reply, an empty or aborted one included, goes on. */
  function AfterPass(s: Session, reply: Option<string>): (r: Step)
    requires Valid(s)
    ensures r.Stopped? <==> reply.Some? && reply.value != "" && (reply.value[0] == 'y' || reply.value[0] == 'Y')
    ensures r.Stopped? ==> r.saved == SaveData(s.table, s.user)
    ensures r.Running? ==> r.session == s
  {
    AcceptsIff(reply);
    if Accepts(reply) then Stopped(SaveData(s.table, s.user)) else Running(s)
  }

  /** What one pass of the outer loop consumes: the shuffle's picks, the
      inputs for its questions, and the reply to the exit prompt. */
  datatype PassInput = PassInput(order: seq<nat>, inputs: seq<Input>, exitReply: Option<string>)

  /** The outer loop, pass after pass. The model follows the supplied passes;
      when they run out, or a pass's picks do not fit its number of due
      questions, it reports the session still running at the start of that pass. */
  function Run(table: seq<Question>, user: UserData, passes: seq<PassInput>): (r: Step)
    requires DistinctIds(table)
    ensures r.Running? ==> Valid(r.session) && r.session.queue == [] && SameIds(r.session.table, table)
    ensures r.Running? ==> r.session.user.known == user.known && r.session.user.iteration >= user.iteration
    ensures r.Stopped? ==> r.saved.user.iteration >= user.iteration
    ensures r.Stopped? ==> r.saved.user.known.Keys == user.known.Keys + KeySet(table)
    decreases |passes|
  {
    var start := Session(table, user, []);
    if |passes| == 0 then Running(start)
    else
      var due := DueIndices(table, user.iteration);
      if !ValidOracle(passes[0].order, |due|) then Running(start)
      else
        var pass := StartPass(table, user, passes[0].order);
        match RunPass(Session(table, user, pass.queue), passes[0].inputs)
        case Stopped(saved) =>
          SameIdsKeySet(table, table);
          Stopped(saved)
        case Running(s) =>
          var c := CompletePass(s);
          SameIdsKeySet(c.table, table);
          match AfterPass(c, passes[0].exitReply)
          case Stopped(saved) => Stopped(saved)
          case Running(c') =>
            var r := Run(c'.table, c'.user, passes[1..]);
            if r.Stopped? then SameIdsKeySet(c'.table, table); r else r
  }

  /** The session a pass works on: the table and progress as they are, with
      the queue `StartPass` builds from the pass's shuffle picks. */
  function PassStart(table: seq<Question>, user: UserData, order: seq<nat>): (s: Session)
    requires DistinctIds(table) && ValidOracle(order, |DueIndices(table, user.iteration)|)
    ensures Valid(s) && s.table == table && s.user == user
  {
    Session(table, user, StartPass(table, user, order).queue)
  }

  /** A pass that is not aborted, followed by any exit reply other than yes,
      goes on with the next pass from the completed state: the answered list
      emptied and the iteration one higher. */
  lemma RunContinues(table: seq<Question>, user: UserData, passes: seq<PassInput>)
    requires DistinctIds(table) && |passes| > 0
    requires ValidOracle(passes[0].order, |DueIndices(table, user.iteration)|)
    requires RunPass(PassStart(table, user, passes[0].order), passes[0].inputs).Running?
    requires !Accepts(passes[0].exitReply)
    ensures var c := CompletePass(RunPass(PassStart(table, user, passes[0].order), passes[0].inputs).session);
      && c.user.iteration == user.iteration + 1 && c.user.answered == []
      && DistinctIds(c.table)
      && Run(table, user, passes) == Run(c.table, c.user, passes[1..])
  {
    var s := RunPass(PassStart(table, user, passes[0].order), passes[0].inputs).session;
    var c := CompletePass(s);
    assert AfterPass(c, passes[0].exitReply) == Running(c);
  }

  /** A pass aborted at one of its questions ends the run with that pass's save. */
  lemma RunStopsInPass(table: seq<Question>, user: UserData, passes: seq<PassInput>)
    requires DistinctIds(table) && |passes| > 0
    requires ValidOracle(passes[0].order, |DueIndices(table, user.iteration)|)
    ensures RunPass(PassStart(table, user, passes[0].order), passes[0].inputs).Stopped? ==>
      Run(table, user, passes) == RunPass(PassStart(table, user, passes[0].order), passes[0].inputs)
  {
  }

  /** A finished pass followed by a yes at the exit prompt ends the run with
      the completed state saved: answered list emptied, iteration one higher. */
  lemma RunStopsAfterPass(table: seq<Question>, user: UserData, passes: seq<PassInput>)
    requires DistinctIds(table) && |passes| > 0
    requires ValidOracle(passes[0].order, |DueIndices(table, user.iteration)|)
    requires RunPass(PassStart(table, user, passes[0].order), passes[0].inputs).Running?
    requires Accepts(passes[0].exitReply)
    ensures var c := CompletePass(RunPass(PassStart(table, user, passes[0].order), passes[0].inputs).session);
      && Run(table, user, passes) == Stopped(SaveData(c.table, c.user))
      && SaveData(c.table, c.user).user.iteration == user.iteration + 1
      && SaveData(c.table, c.user).user.answered == []
  {
  }

  /** In the first iteration a single new question is due and queued. */
  lemma ScenarioQueue(q: Question)
    requires q.rank == 0
    ensures DueIndices([q], 0) == [0]
    ensures StartPass([q], UserData(map[], 0, []), [0]).queue == [0]
  {
    DueAtStart(0);
    assert DueFrom([q], 0, 1) == [];
    assert Scatter([0], [0], Range(1), Empty<nat>(1)) == [Some(0)];
    assert Shuffled([0], [0]) == [0];
  }

  /** A pass with one question left ends with that question's answer. */
  lemma LastQuestionPass(s: Session, input: Input)
    requires Valid(s) && |s.queue| == 1 && input.reply.Some?
    ensures RunPass(s, [input]) == Answer(s, Grade(s.table[s.queue[0]], input))
  {
    var step := Answer(s, Grade(s.table[s.queue[0]], input));
    assert step.Running? && step.session.queue == [];
    assert RunPass(step.session, []) == Running(step.session);
  }

  /** A right answer to a pass's only question promotes it and ends the pass. */
  lemma ScenarioPass(q: Question, user: UserData, input: Input)
    requires Grade(q, input) == Correct
    ensures RunPass(Session([q], user, [0]), [input]) ==
      Running(Session([q.(rank := 1 + q.rank)], user.(answered := user.answered + [q.id]), []))
  {
    LastQuestionPass(Session([q], user, [0]), input);
    ScenarioAnswer(q, user);
  }

  /** A rank-0 question with the answer shown first, and option 0 picked, is graded right. */
  lemma ScenarioGrade(q: Question, input: Input)
    requires q.rank == 0 && |input.options| > 0 && input.options[0] == q.answer
    requires input.reply == Some(NatToString(0))
    ensures Grade(q, input) == Correct
  {
    ChoosingShownIndex(input.options, q.answer, 0);
  }

  /** A right answer to the only queued question promotes it and empties the queue. */
  lemma ScenarioAnswer(q: Question, user: UserData)
    ensures Answer(Session([q], user, [0]), Correct) ==
      Running(Session([q.(rank := 1 + q.rank)], user.(answered := user.answered + [q.id]), []))
  {
    assert [q][0 := q.(rank := 1 + q.rank)] == [q.(rank := 1 + q.rank)];
  }

  /** Quitting after the pass saves the promoted rank. */
  lemma ScenarioSave(q: Question)
    requires q.rank == 1
    ensures AfterPass(Session([q], UserData(map[], 1, []), []), Some("y")) ==
      Stopped(Saved(UserData(map[q.id := 1], 1, []), [q]))
  {
    var user := UserData(map[], 1, []);
    assert Accepts(Some("y"));
    assert [q][..0] == [];
    assert Record(map[], [q]) == map[q.id := 1];
    assert Prune([q]) == [q];
    assert SaveData([q], user) == Saved(user.(known := map[q.id := 1]), [q]);
  }

  /** A first session with one new question, answered right and then quit at
      the end of the iteration: the question is saved at rank 1, the
      iteration counter at 1 and the answered list empty. `ScenarioGrade`
      gives such an answer for a multiple-choice question. */
  lemma FirstIterationScenario(q: Question, input: Input)
    requires q.rank == 0 && Grade(q, input) == Correct
    ensures Run([q], UserData(map[], 0, []), [PassInput([0], [input], Some("y"))]) ==
      Stopped(Saved(UserData(map[q.id := 1], 1, []), [q.(rank := 1)]))
  {
    var user := UserData(map[], 0, []);
    ScenarioQueue(q);
    ScenarioPass(q, user, input);
    ScenarioSave(q.(rank := 1));
  }

  /** Tables with the same ids hold the same key set. */
  lemma SameIdsKeySet(t: seq<Question>, u: seq<Question>)
    requires SameIds(t, u)
    ensures KeySet(t) == KeySet(u)
  {
    forall id | id in KeySet(t)
      ensures id in KeySet(u)
    {
      var q :| q in t && q.id == id;
      var j :| 0 <= j < |t| && t[j] == q;
      assert u[j] in u;
    }
    forall id | id in KeySet(u)
      ensures id in KeySet(t)
    {
      var q :| q in u && q.id == id;
      var j :| 0 <= j < |u| && u[j] == q;
      assert t[j] in t;
    }
  }
}

=== FILE: sets.dfy ===
/** Loading of question-set files, after JSON parsing: every entry's id is
    namespaced by its set, and every reversible entry gets a swapped copy
    appended after the originals. */
module Sets {
  import opened Text

  /** One entry of a set file, `{ id?, q, a, r? }`; a missing `r` is `false`. */
  datatype Entry = Entry(id: Option<string>, q: string, a: string, r: bool)

  /** An entry after expansion: its id is always present and namespaced. */
  datatype Card = Card(id: string, q: string, a: string, r: bool)

  /** A parsed set file: its name (the path under `sets/` without `.json`) and its entries. */
  datatype SetFile = SetFile(name: string, entries: seq<Entry>)

  /** `<set>/<id>`, or `<set>/Q<i>` for the entry at index `i` without an id. */
  function QualifiedId(setName: string, e: Entry, i: nat): string
  {
    setName + "/" + match e.id
      case Some(id) => id
      case None => "Q" + NatToString(i)
  }

  /** A qualified id is the set name and `/`, then the entry's own id or its
      `Q<i>` fallback. */
  lemma QualifiedIdParts(setName: string, e: Entry, i: nat)
    ensures |QualifiedId(setName, e, i)| > |setName|
    ensures QualifiedId(setName, e, i)[..|setName| + 1] == setName + "/"
    ensures e.id.Some? ==> QualifiedId(setName, e, i)[|setName| + 1..] == e.id.value
    ensures e.id.None? ==> QualifiedId(setName, e, i)[|setName| + 1..] == "Q" + NatToString(i)
  {
  }

  /** Entries without an id at different positions get different ids. */
  lemma FallbackIdsDistinct(setName: string, e: Entry, e': Entry, i: nat, i': nat)
    requires e.id.None? && e'.id.None? && i != i'
    ensures QualifiedId(setName, e, i) != QualifiedId(setName, e', i')
  {
    QualifiedIdParts(setName, e, i);
    QualifiedIdParts(setName, e', i');
    if QualifiedId(setName, e, i) == QualifiedId(setName, e', i') {
      assert ("Q" + NatToString(i))[1..] == NatToString(i);
      assert ("Q" + NatToString(i'))[1..] == NatToString(i');
      NatToStringInjective(i, i');
      assert false;
    }
  }

  /** The entries with their ids rewritten, in file order. */
  function Named(setName: string, entries: seq<Entry>): (cards: seq<Card>)
    ensures |cards| == |entries|
    ensures forall i :: 0 <= i < |entries| ==>
      cards[i] == Card(QualifiedId(setName, entries[i], i), entries[i].q, entries[i].a, entries[i].r)
  {
    seq(|entries|, i requires 0 <= i < |entries| =>
      Card(QualifiedId(setName, entries[i], i), entries[i].q, entries[i].a, entries[i].r))
  }

  /** The swapped copy of a reversible card: question and answer exchanged,
      `_R` appended to the id, itself flagged reversible. */
  function Reversed(c: Card): Card
  {
    Card(c.id + "_R", c.a, c.q, true)
  }

  /** Reversing a copy again gives back the original question and answer,
      under a new id that is never the original's. */
  lemma ReversedTwice(c: Card)
    ensures Reversed(Reversed(c)).q == c.q && Reversed(Reversed(c)).a == c.a
    ensures Reversed(c).id != c.id && Reversed(Reversed(c)).id != c.id
  {
    assert |Reversed(c).id| == |c.id| + 2;
  }

  /** The swapped copies of the flagged cards, in order. */
  function Reversals(cards: seq<Card>): seq<Card>
  {
    if |cards| == 0 then []
    else
      var last := cards[|cards| - 1];
      Reversals(cards[..|cards| - 1]) + (if last.r then [Reversed(last)] else [])
  }

  /** The number of entries flagged reversible. */
  function Flagged(entries: seq<Entry>): nat
  {
    if |entries| == 0 then 0
    else Flagged(entries[..|entries| - 1]) + (if entries[|entries| - 1].r then 1 else 0)
  }

  /** There is one copy per flagged card. */
  lemma {:induction false} ReversalsLength(entries: seq<Entry>, cards: seq<Card>)
    requires |cards| == |entries|
    requires forall i :: 0 <= i < |cards| ==> cards[i].r == entries[i].r
    ensures |Reversals(cards)| == Flagged(entries)
  {
    if |cards| > 0 {
      ReversalsLength(entries[..|cards| - 1], cards[..|cards| - 1]);
    }
  }

  /** The copy of the flagged card `i` comes after the copies of the flagged
      cards before it. */
  lemma {:induction false} ReversalsAt(entries: seq<Entry>, cards: seq<Card>, i: nat)
    requires |cards| == |entries|
    requires forall j :: 0 <= j < |cards| ==> cards[j].r == entries[j].r
    requires i < |cards| && cards[i].r
    ensures Flagged(entries[..i]) < |Reversals(cards)|
    ensures Reversals(cards)[Flagged(entries[..i])] == Reversed(cards[i])
  {
    var n := |cards| - 1;
    ReversalsLength(entries[..n], cards[..n]);
    if i < n {
      ReversalsAt(entries[..n], cards[..n], i);
      assert entries[..n][..i] == entries[..i];
    } else {
      assert entries[..i] == entries[..n];
    }
  }

  /** Every copy is the copy of some flagged card. */
  lemma {:induction false} ReversalsFrom(cards: seq<Card>, k: nat)
    requires k < |Reversals(cards)|
    ensures exists i :: 0 <= i < |cards| && cards[i].r && Reversals(cards)[k] == Reversed(cards[i])
  {
    var n := |cards| - 1;
    if k < |Reversals(cards[..n])| {
      ReversalsFrom(cards[..n], k);
      var i :| 0 <= i < n && cards[..n][i].r && Reversals(cards[..n])[k] == Reversed(cards[..n][i]);
      assert cards[i] == cards[..n][i];
    } else {
      assert cards[n].r && Reversals(cards)[k] == Reversed(cards[n]);
    }
  }

  /** `cards` holds, after its first `|entries|` elements, one swapped copy
      per reversible entry, in the order of the entries, and nothing else. */
  predicate CopiesFollow(entries: seq<Entry>, cards: seq<Card>)
  {
    |cards| == |entries| + Flagged(entries) &&
    (forall i :: 0 <= i < |entries| && entries[i].r ==>
      |entries| + Flagged(entries[..i]) < |cards| && cards[|entries| + Flagged(entries[..i])] == Reversed(cards[i])) &&
    (forall j :: |entries| <= j < |cards| ==> CopyOfFlagged(entries, cards, j))
  }

  /** `cards[j]` is the swapped copy of a card whose entry is reversible. */
  predicate CopyOfFlagged(entries: seq<Entry>, cards: seq<Card>, j: int)
  {
    0 <= j < |cards| &&
    exists i :: 0 <= i < |entries| && i < |cards| && entries[i].r && cards[j] == Reversed(cards[i])
  }

  /** Cards flagged like `entries`, followed by their copies, are laid out that way. */
  lemma {:induction false} CopiesLayout(entries: seq<Entry>, cards: seq<Card>)
    requires |cards| == |entries|
    requires forall i :: 0 <= i < |cards| ==> cards[i].r == entries[i].r
    ensures CopiesFollow(entries, cards + Reversals(cards))
  {
    var all := cards + Reversals(cards);
    ReversalsLength(entries, cards);
    forall i | 0 <= i < |entries| && entries[i].r
      ensures |entries| + Flagged(entries[..i]) < |all| && all[|entries| + Flagged(entries[..i])] == Reversed(all[i])
    {
      ReversalsAt(entries, cards, i);
      assert all[i] == cards[i];
    }
    forall j | |entries| <= j < |all|
      ensures CopyOfFlagged(entries, all, j)
    {
      ReversalsFrom(cards, j - |entries|);
      var i :| 0 <= i < |cards| && cards[i].r && Reversals(cards)[j - |entries|] == Reversed(cards[i]);
      assert all[i] == cards[i];
    }
  }

  /** The expanded set: the originals with namespaced ids, in file order,
      followed by one swapped copy per reversible original, each copy placed
      after the copies of the reversible originals before it. */
  function Expand(setName: string, entries: seq<Entry>): (cards: seq<Card>)
    ensures |cards| == |entries| + Flagged(entries)
    ensures cards[..|entries|] == Named(setName, entries)
    ensures CopiesFollow(entries, cards)
  {
    var named := Named(setName, entries);
    CopiesLayout(entries, named);
    named + Reversals(named)
  }

  /** The loop of the source: it appends to the same array it walks, and its
      bound is the length taken before the loop, so the appended copies are
      never themselves visited. */
  method ExpandInPlace(setName: string, entries: seq<Entry>) returns (contents: seq<Card>)
    ensures contents == Expand(setName, entries)
  {
    contents := Named(setName, entries);
    ghost var named := contents;
    var maxLength := |contents|;
    var i := 0;
    while i < maxLength
      invariant 0 <= i <= maxLength == |named|
      invariant contents == named + Reversals(named[..i])
    {
      assert named[..i + 1][..i] == named[..i];
      if contents[i].r {
        contents := contents + [Reversed(contents[i])];
      }
      i := i + 1;
    }
    assert named[..maxLength] == named;
  }

  /** Every card of `part` is in `whole`. */
  predicate Includes(whole: seq<Card>, part: seq<Card>)
  {
    forall c :: c in part ==> c in whole
  }

  /** `c` is a card of the expansion of one of `files`. */
  predicate FromSomeSet(files: seq<SetFile>, c: Card)
  {
    exists f :: f in files && c in Expand(f.name, f.entries)
  }

  /** All sets loaded, one after another, as `Promise.all(...).flat(1)` joins them. */
  function LoadSets(files: seq<SetFile>): (data: seq<Card>)
    ensures forall f :: f in files ==> Includes(data, Expand(f.name, f.entries))
  {
    if |files| == 0 then []
    else Expand(files[0].name, files[0].entries) + LoadSets(files[1..])
  }

  /** Nothing else is loaded: every card comes from one of the sets. */
  lemma {:induction false} LoadSetsFrom(files: seq<SetFile>)
    ensures forall c :: c in LoadSets(files) ==> FromSomeSet(files, c)
  {
    if |files| > 0 {
      LoadSetsFrom(files[1..]);
      forall c | c in LoadSets(files)
        ensures FromSomeSet(files, c)
      {
        if c !in Expand(files[0].name, files[0].entries) {
          assert c in LoadSets(files[1..]);
          assert FromSomeSet(files[1..], c);
          var f :| f in files[1..] && c in Expand(f.name, f.entries);
          assert f in files;
        } else {
          assert files[0] in files;
        }
      }
    }
  }

  /** A single set loads as its own expansion. */
  lemma LoadSetsSingle(f: SetFile)
    ensures LoadSets([f]) == Expand(f.name, f.entries)
  {
    assert [f][1..] == [];
  }

  /** Loading keeps the order of the sets and the cards of each set, each
      card exactly once: loading two lists of sets loads one after the other. */
  lemma {:induction false} LoadSetsAppend(f: seq<SetFile>, g: seq<SetFile>)
    ensures LoadSets(f + g) == LoadSets(f) + LoadSets(g)
  {
    if |f| == 0 {
      assert f + g == g;
    } else {
      assert (f + g)[0] == f[0];
      assert (f + g)[1..] == f[1..] + g;
      LoadSetsAppend(f[1..], g);
    }
  }
}

=== FILE: shuffle.dfy ===
/** `shuffle_array`: every element in turn is written into a slot picked at
    random from the list of slots still free, and that slot is then spliced out
    of the list. The random picks are an explicit oracle: pick k is an index
    into the free list as it stands before element k is placed. */
module Shuffle {
  import opened Text

  /** Pick k lies below the number of slots still free at step k, as
      `Math.floor(Math.random() * free.length)` always does. */
  predicate ValidOracle(oracle: seq<nat>, n: nat)
  {
    |oracle| == n && forall k :: 0 <= k < n ==> oracle[k] < n - k
  }

  /** The slot indices `0, 1, ..., n - 1`, as `array.map((_, index) => index)` builds them. */
  function Range(n: nat): (r: seq<nat>)
    ensures |r| == n
    ensures forall j :: 0 <= j < n ==> r[j] == j
  {
    seq(n, j => j)
  }

  /** The result array before any element is placed: every slot empty. */
  function Empty<T>(n: nat): (r: seq<Option<T>>)
    ensures |r| == n
    ensures forall p :: 0 <= p < n ==> r[p].None?
  {
    seq(n, _ => None)
  }

  /** Places `a` into `out`, element by element, at the slots `oracle` picks
      from the free list `free`. */
  function Scatter<T>(a: seq<T>, oracle: seq<nat>, free: seq<nat>, out: seq<Option<T>>): (r: seq<Option<T>>)
    requires |oracle| == |a| == |free|
    requires forall k :: 0 <= k < |a| ==> oracle[k] < |a| - k
    requires forall j :: 0 <= j < |free| ==> free[j] < |out|
    ensures |r| == |out|
    decreases |a|
  {
    if |a| == 0 then out
    else
      var j := oracle[0];
      Scatter(a[1..], oracle[1..], free[..j] + free[j + 1..], out[free[j] := Some(a[0])])
  }

  /** The multiset of the values held by the filled slots. */
  function Filled<T>(s: seq<Option<T>>): multiset<T>
  {
    if |s| == 0 then multiset{}
    else Filled(s[..|s| - 1]) + (if s[|s| - 1].Some? then multiset{s[|s| - 1].value} else multiset{})
  }

  predicate AllFilled<T>(s: seq<Option<T>>)
  {
    forall p :: 0 <= p < |s| ==> s[p].Some?
  }

  /** The values of a fully filled array, in slot order. */
  function Unwrap<T>(s: seq<Option<T>>): (r: seq<T>)
    requires AllFilled(s)
    ensures |r| == |s|
    ensures forall p :: 0 <= p < |s| ==> r[p] == s[p].value
  {
    if |s| == 0 then [] else Unwrap(s[..|s| - 1]) + [s[|s| - 1].value]
  }

  /** Filling an empty slot adds exactly its new value. */
  lemma {:induction false} FilledUpdate<T>(s: seq<Option<T>>, p: nat, x: T)
    requires p < |s| && s[p].None?
    ensures Filled(s[p := Some(x)]) == Filled(s) + multiset{x}
  {
    var s' := s[p := Some(x)];
    var n := |s| - 1;
    if p == n {
      assert s'[..n] == s[..n];
      assert Filled(s') == Filled(s'[..n]) + multiset{x};
    } else {
      assert s'[..n] == s[..n][p := Some(x)];
      FilledUpdate(s[..n], p, x);
      assert s'[n] == s[n];
      assert Filled(s') == Filled(s'[..n]) + (if s[n].Some? then multiset{s[n].value} else multiset{});
    }
  }

  /** No slot is filled in the empty array. */
  lemma {:induction false} FilledEmpty<T>(n: nat)
    ensures Filled(Empty<T>(n)) == multiset{}
  {
    if n > 0 {
      assert Empty<T>(n)[..n - 1] == Empty<T>(n - 1);
      FilledEmpty<T>(n - 1);
    }
  }

  /** The values of a fully filled array are exactly its filled multiset. */
  lemma {:induction false} UnwrapFilled<T>(s: seq<Option<T>>)
    requires AllFilled(s)
    ensures multiset(Unwrap(s)) == Filled(s)
  {
    if |s| > 0 {
      UnwrapFilled(s[..|s| - 1]);
    }
  }

  /** The free list holds distinct slots, and they are exactly the empty ones. */
  predicate FreeListExact<T>(free: seq<nat>, out: seq<Option<T>>)
  {
    && (forall j :: 0 <= j < |free| ==> free[j] < |out|)
    && (forall i, j :: 0 <= i < j < |free| ==> free[i] != free[j])
    && (forall p :: 0 <= p < |out| ==> (out[p].None? <==> p in free))
  }

  /** Every slot is free at the start. */
  lemma FreeListInitial<T>(n: nat)
    ensures FreeListExact(Range(n), Empty<T>(n))
  {
    forall p | 0 <= p < n
      ensures p in Range(n)
    {
      assert Range(n)[p] == p;
    }
  }

  /** Filling the slot at position `j` of the free list and splicing it out
      keeps the free list exact. */
  lemma SpliceKeepsExact<T>(free: seq<nat>, out: seq<Option<T>>, j: nat, x: T)
    requires FreeListExact(free, out)
    requires j < |free|
    ensures FreeListExact(free[..j] + free[j + 1..], out[free[j] := Some(x)])
  {
    var free' := free[..j] + free[j + 1..];
    var out' := out[free[j] := Some(x)];
    forall p | 0 <= p < |out'|
      ensures out'[p].None? <==> p in free'
    {
      if p == free[j] {
        assert p !in free';
      } else if p in free {
        var i :| 0 <= i < |free| && free[i] == p;
        assert i < j ==> free'[i] == p;
        assert i > j ==> free'[i - 1] == p;
      }
    }
  }

  /** Scattering with an exact free list of the right size fills every slot. */
  lemma {:induction false} ScatterFills<T>(a: seq<T>, oracle: seq<nat>, free: seq<nat>, out: seq<Option<T>>)
    requires |oracle| == |a| == |free|
    requires forall k :: 0 <= k < |a| ==> oracle[k] < |a| - k
    requires FreeListExact(free, out)
    ensures AllFilled(Scatter(a, oracle, free, out))
    decreases |a|
  {
    if |a| == 0 {
      forall p | 0 <= p < |out|
        ensures out[p].Some?
      {
        assert p !in free;
      }
    } else {
      var j := oracle[0];
      var free' := free[..j] + free[j + 1..];
      var out' := out[free[j] := Some(a[0])];
      assert Scatter(a, oracle, free, out) == Scatter(a[1..], oracle[1..], free', out');
      SpliceKeepsExact(free, out, j, a[0]);
      ScatterFills(a[1..], oracle[1..], free', out');
    }
  }

  /** Scattering into the free slots adds exactly the scattered elements. */
  lemma {:induction false} ScatterAdds<T>(a: seq<T>, oracle: seq<nat>, free: seq<nat>, out: seq<Option<T>>)
    requires |oracle| == |a| == |free|
    requires forall k :: 0 <= k < |a| ==> oracle[k] < |a| - k
    requires FreeListExact(free, out)
    ensures Filled(Scatter(a, oracle, free, out)) == Filled(out) + multiset(a)
    decreases |a|
  {
    if |a| > 0 {
      var j := oracle[0];
      var free' := free[..j] + free[j + 1..];
      var out' := out[free[j] := Some(a[0])];
      var rest := Scatter(a[1..], oracle[1..], free', out');
      assert Scatter(a, oracle, free, out) == rest;
      assert free[j] in free;
      FilledUpdate(out, free[j], a[0]);
      SpliceKeepsExact(free, out, j, a[0]);
      assert forall k :: 0 <= k < |a| - 1 ==> oracle[1..][k] < |a| - 1 - k by {
        forall k | 0 <= k < |a| - 1
          ensures oracle[1..][k] < |a| - 1 - k
        {
          assert oracle[1..][k] == oracle[k + 1];
        }
      }
      ScatterAdds(a[1..], oracle[1..], free', out');
      assert Filled(rest) == Filled(out) + multiset{a[0]} + multiset(a[1..]);
      MultisetOfCons(a);
    }
  }

  lemma MultisetOfCons<T>(a: seq<T>)
    requires |a| > 0
    ensures multiset(a) == multiset{a[0]} + multiset(a[1..])
  {
    assert a == [a[0]] + a[1..];
  }

  /** The shuffled sequence: `a[k]` lands in the slot oracle pick k chooses. */
  function Shuffled<T>(a: seq<T>, oracle: seq<nat>): (r: seq<T>)
    requires ValidOracle(oracle, |a|)
    ensures |r| == |a|
    ensures multiset(r) == multiset(a)
  {
    var s := Scatter(a, oracle, Range(|a|), Empty(|a|));
    FreeListInitial<T>(|a|);
    ScatterFills(a, oracle, Range(|a|), Empty(|a|));
    ScatterAdds(a, oracle, Range(|a|), Empty(|a|));
    FilledEmpty<T>(|a|);
    UnwrapFilled(s);
    Unwrap(s)
  }

  /** `shuffle_array` over an array: the result array starts all empty and the
      free list shrinks by one splice per placed element. */
  method ShuffleArray<T>(a: seq<T>, oracle: seq<nat>) returns (r: seq<T>)
    requires ValidOracle(oracle, |a|)
    ensures r == Shuffled(a, oracle)
    ensures multiset(r) == multiset(a)
  {
    var n := |a|;
    var slots := new Option<T>[n](_ => None);
    assert slots[..] == Empty(n);
    var free: seq<nat> := Range(n);
    var k := 0;
    while k < n
      invariant 0 <= k <= n
      invariant |free| == n - k
      invariant forall j :: 0 <= j < |free| ==> free[j] < n
      invariant Scatter(a[k..], oracle[k..], free, slots[..]) == Scatter(a, oracle, Range(n), Empty(n))
    {
      var j := oracle[k];
      assert a[k..][1..] == a[k + 1..];
      assert oracle[k..][1..] == oracle[k + 1..];
      slots[free[j]] := Some(a[k]);
      free := free[..j] + free[j + 1..];
      k := k + 1;
    }
    FreeListInitial<T>(n);
    ScatterFills(a, oracle, Range(n), Empty(n));
    r := Unwrap(slots[..]);
  }
}

=== FILE: store.dfy ===
/** The progress store and the question table: `user.json` after parsing, the
    table of loaded questions keyed by id, and the map update `save_data`
    performs before the file is written. */
module Store {
  import opened Text
  import opened Sets

  /** A loaded question with its current mastery rank. */
  datatype Question = Question(id: string, question: string, answer: string, rank: nat)

  /** The persisted progress: rank per question id, the iteration counter,
      and the ids already answered in the current iteration. */
  datatype UserData = UserData(known: map<string, nat>, iteration: nat, answered: seq<string>)

  /** `user.json` as parsed, before the missing fields are defaulted. */
  datatype StoredUser = StoredUser(known: map<string, nat>, iteration: Option<nat>, answered: Option<seq<string>>)

  /** The progress at start-up: the defaults when no file exists yet,
      otherwise the file with a missing iteration read as 0 and a missing
      answered list read as empty. */
  function LoadUser(file: Option<StoredUser>): (user: UserData)
    ensures file.None? ==> user == UserData(map[], 0, [])
    ensures file.Some? ==> user.known == file.value.known
    ensures file.Some? && file.value.iteration.Some? ==> user.iteration == file.value.iteration.value
    ensures file.Some? && file.value.iteration.None? ==> user.iteration == 0
    ensures file.Some? && file.value.answered.Some? ==> user.answered == file.value.answered.value
    ensures file.Some? && file.value.answered.None? ==> user.answered == []
  {
    match file
    case None => UserData(map[], 0, [])
    case Some(f) =>
      UserData(
        f.known,
        match f.iteration case Some(n) => n case None => 0,
        match f.answered case Some(ids) => ids case None => [])
  }

  // The question table: the `questions` object, as a sequence in key
  // insertion order. Its ids are distinct because they are object keys.

  function Ids(table: seq<Question>): (ids: seq<string>)
    ensures |ids| == |table|
    ensures forall i :: 0 <= i < |table| ==> ids[i] == table[i].id
  {
    seq(|table|, i requires 0 <= i < |table| => table[i].id)
  }

  /** The ids the table holds. */
  function KeySet(table: seq<Question>): set<string>
  {
    set q | q in table :: q.id
  }

  /** The ids of a table are those of all but its last entry, plus the last one's. */
  lemma KeySetSplit(table: seq<Question>)
    requires |table| > 0
    ensures KeySet(table) == KeySet(table[..|table| - 1]) + {table[|table| - 1].id}
  {
    var n := |table| - 1;
    assert forall q :: q in table <==> q in table[..n] || q == table[n];
  }

  predicate DistinctIds(table: seq<Question>)
  {
    forall i, j :: 0 <= i < j < |table| ==> table[i].id != table[j].id
  }

  /** `questions[q.id] = q`: an existing key keeps its position and gets the
      new value, a new key is appended. */
  function Upsert(table: seq<Question>, q: Question): (t: seq<Question>)
    requires DistinctIds(table)
    ensures DistinctIds(t)
    ensures q.id in Ids(table) ==> |t| == |table| && Ids(t) == Ids(table)
    ensures q.id !in Ids(table) ==> t == table + [q]
    ensures q in t
    ensures forall p :: p in t ==> p == q || (p in table && p.id != q.id)
    ensures forall p :: p in table && p.id != q.id ==> p in t
    ensures KeySet(t) == KeySet(table) + {q.id}
  {
    if i :| 0 <= i < |table| && table[i].id == q.id then
      assert Ids(table[i := q]) == Ids(table);
      assert forall p :: p in table && p.id != q.id ==> p in table[i := q] by {
        forall p | p in table && p.id != q.id
          ensures p in table[i := q]
        {
          var j :| 0 <= j < |table| && table[j] == p;
          assert table[i := q][j] == p;
        }
      }
      assert table[i] in table;
      table[i := q]
    else
      table + [q]
  }

  /** The question a set card becomes: its rank is the remembered one, or 0. */
  function QuestionOf(c: Card, known: map<string, nat>): (q: Question)
    ensures q.id == c.id && q.question == c.q && q.answer == c.a
    ensures c.id in known ==> q.rank == known[c.id]
    ensures c.id !in known ==> q.rank == 0
  {
    Question(c.id, c.q, c.a, if c.id in known then known[c.id] else 0)
  }

  /** The question table built from the loaded cards, in card order; a later
      card with an id already present replaces the earlier one. */
  function BuildQuestions(data: seq<Card>, known: map<string, nat>): (table: seq<Question>)
    ensures DistinctIds(table)
    ensures forall q :: q in table ==> exists c :: c in data && q == QuestionOf(c, known)
  {
    if |data| == 0 then []
    else
      var prev := BuildQuestions(data[..|data| - 1], known);
      var t := Upsert(prev, QuestionOf(data[|data| - 1], known));
      assert forall c :: c in data[..|data| - 1] ==> c in data;
      t
  }

  /** The card that decides the entry for `id`: the last card carrying it. */
  function LastWith(data: seq<Card>, id: string): Option<Card>
  {
    if |data| == 0 then None
    else if data[|data| - 1].id == id then Some(data[|data| - 1])
    else LastWith(data[..|data| - 1], id)
  }

  /** Every card id gets an entry, and no other id does. */
  lemma {:induction false} BuildQuestionsKeys(data: seq<Card>, known: map<string, nat>, id: string)
    ensures id in KeySet(BuildQuestions(data, known)) <==> LastWith(data, id).Some?
  {
    if |data| > 0 {
      var n := |data| - 1;
      assert BuildQuestions(data, known) == Upsert(BuildQuestions(data[..n], known), QuestionOf(data[n], known));
      BuildQuestionsKeys(data[..n], known, id);
    }
  }

  /** The entry for an id is built from the last card carrying it. */
  lemma {:induction false} BuildQuestionsLast(data: seq<Card>, known: map<string, nat>, id: string)
    requires LastWith(data, id).Some?
    ensures QuestionOf(LastWith(data, id).value, known) in BuildQuestions(data, known)
  {
    var n := |data| - 1;
    var prev := BuildQuestions(data[..n], known);
    var q := QuestionOf(data[n], known);
    assert BuildQuestions(data, known) == Upsert(prev, q);
    if data[n].id != id {
      var p := QuestionOf(LastWith(data[..n], id).value, known);
      BuildQuestionsLast(data[..n], known, id);
      LastWithId(data[..n], id);
      assert p in prev && p.id != q.id;
    }
  }

  /** The card found for an id carries that id. */
  lemma {:induction false} LastWithId(data: seq<Card>, id: string)
    requires LastWith(data, id).Some?
    ensures LastWith(data, id).value.id == id
  {
    if data[|data| - 1].id != id {
      LastWithId(data[..|data| - 1], id);
    }
  }

  /** The keys of the table are the ids of what was loaded, each once, in
      the order of their first appearance. */
  lemma {:induction false} BuildQuestionsIds(data: seq<Card>, known: map<string, nat>)
    ensures Ids(BuildQuestions(data, known)) == FirstOccurrences(CardIds(data))
  {
    if |data| > 0 {
      var n := |data| - 1;
      BuildQuestionsIds(data[..n], known);
      assert CardIds(data[..n]) == CardIds(data)[..n];
    }
  }

  /** The ids of the loaded cards in card order: the projection `Ids` makes of
      the question table, taken here of the cards the table is built from. */
  function CardIds(data: seq<Card>): (ids: seq<string>)
    ensures |ids| == |data|
    ensures forall i :: 0 <= i < |data| ==> ids[i] == data[i].id
  {
    seq(|data|, i requires 0 <= i < |data| => data[i].id)
  }

  /** `s` without repeats, each element kept at its first appearance. */
  function FirstOccurrences(s: seq<string>): seq<string>
  {
    if |s| == 0 then []
    else
      var prefix := FirstOccurrences(s[..|s| - 1]);
      if s[|s| - 1] in prefix then prefix else prefix + [s[|s| - 1]]
  }

  /** The answer pool: every loaded answer, duplicates included, in card order. */
  function AllAnswers(data: seq<Card>): (answers: seq<string>)
    ensures |answers| == |data|
    ensures forall i :: 0 <= i < |data| ==> answers[i] == data[i].a
  {
    seq(|data|, i requires 0 <= i < |data| => data[i].a)
  }

  /** `known` with every question's current rank written under its id, in table order. */
  function Record(known: map<string, nat>, table: seq<Question>): map<string, nat>
  {
    if |table| == 0 then known
    else Record(known, table[..|table| - 1])[table[|table| - 1].id := table[|table| - 1].rank]
  }

  /** Writing the ranks adds exactly the table's ids to the keys. */
  lemma {:induction false} RecordKeys(known: map<string, nat>, table: seq<Question>)
    ensures Record(known, table).Keys == known.Keys + KeySet(table)
  {
    if |table| > 0 {
      RecordKeys(known, table[..|table| - 1]);
      KeySetSplit(table);
    }
  }

  /** The entries before the last one do not share its id. */
  lemma LastIdFresh(table: seq<Question>)
    requires DistinctIds(table) && |table| > 0
    ensures table[|table| - 1].id !in KeySet(table[..|table| - 1])
  {
  }

  /** Each question's rank ends up under its id. */
  lemma {:induction false} RecordRanks(known: map<string, nat>, table: seq<Question>, q: Question)
    requires DistinctIds(table) && q in table
    ensures q.id in Record(known, table) && Record(known, table)[q.id] == q.rank
  {
    var n := |table| - 1;
    if q != table[n] {
      assert q in table[..n];
      LastIdFresh(table);
      assert q.id in KeySet(table[..n]);
      RecordRanks(known, table[..n], q);
    }
  }

  /** Ids outside the table keep their remembered rank. */
  lemma {:induction false} RecordOthers(known: map<string, nat>, table: seq<Question>, id: string)
    requires id in known && id !in KeySet(table)
    ensures id in Record(known, table) && Record(known, table)[id] == known[id]
  {
    if |table| > 0 {
      KeySetSplit(table);
      RecordOthers(known, table[..|table| - 1], id);
    }
  }

  /** The table without the questions whose rank is 0, order kept. */
  function Prune(table: seq<Question>): (t: seq<Question>)
    ensures forall q :: q in t <==> q in table && q.rank != 0
    ensures |t| <= |table|
  {
    if |table| == 0 then []
    else
      var last := table[|table| - 1];
      var prefix := Prune(table[..|table| - 1]);
      assert forall q :: q in table <==> q in table[..|table| - 1] || q == last;
      if last.rank == 0 then prefix else prefix + [last]
  }

  /** What `save_data` leaves behind. */
  datatype Saved = Saved(user: UserData, table: seq<Question>)

  /** `save_data`: every loaded question's rank, zero included, is written into
      `known`; entries of questions that were not loaded stay as they were;
      the iteration and the answered list are persisted unchanged; the
      rank-0 questions are then dropped from the in-memory table only. */
  function SaveData(table: seq<Question>, user: UserData): (r: Saved)
    requires DistinctIds(table)
    ensures r.user.iteration == user.iteration && r.user.answered == user.answered
    ensures r.user.known.Keys == user.known.Keys + KeySet(table)
    ensures forall q :: q in table ==> r.user.known[q.id] == q.rank
    ensures forall id :: id in user.known && id !in KeySet(table) ==> r.user.known[id] == user.known[id]
    ensures forall q :: q in r.table <==> q in table && q.rank != 0
  {
    RecordKeys(user.known, table);
    forall q | q in table
      ensures Record(user.known, table)[q.id] == q.rank
    {
      RecordRanks(user.known, table, q);
    }
    forall id | id in user.known && id !in KeySet(table)
      ensures Record(user.known, table)[id] == user.known[id]
    {
      RecordOthers(user.known, table, id);
    }
    Saved(user.(known := Record(user.known, table)), Prune(table))
  }

  /** Saving a second time, with no grading in between, writes the same map. */
  lemma SaveDataIdempotent(table: seq<Question>, user: UserData)
    requires DistinctIds(table)
    ensures DistinctIds(SaveData(table, user).table)
    ensures SaveData(SaveData(table, user).table, SaveData(table, user).user).user == SaveData(table, user).user
  {
    var once := SaveData(table, user);
    PruneDistinct(table);
    var twice := SaveData(once.table, once.user);
    forall q | q in once.table
      ensures q in table
    {
    }
    assert twice.user.known.Keys == once.user.known.Keys;
    forall id | id in once.user.known
      ensures twice.user.known[id] == once.user.known[id]
    {
      if id in KeySet(once.table) {
        var q :| q in once.table && q.id == id;
        assert q in table;
      }
    }
  }

  /** Pruning keeps the ids distinct. */
  lemma {:induction false} PruneDistinct(table: seq<Question>)
    requires DistinctIds(table)
    ensures DistinctIds(Prune(table))
  {
    if |table| > 0 {
      var n := |table| - 1;
      var prefix := Prune(table[..n]);
      assert Prune(table) == if table[n].rank == 0 then prefix else prefix + [table[n]];
      assert DistinctIds(table[..n]) by {
        forall i, j | 0 <= i < j < n
          ensures table[..n][i].id != table[..n][j].id
        {
          assert table[..n][i] == table[i] && table[..n][j] == table[j];
        }
      }
      PruneDistinct(table[..n]);
      forall q | q in prefix
        ensures q.id != table[n].id
      {
        var i :| 0 <= i < n && table[..n][i] == q;
        assert table[i] == q;
      }
      DistinctAppend(prefix, table[n]);
    }
  }

  /** Appending a question whose id is new keeps the ids distinct. */
  lemma DistinctAppend(table: seq<Question>, q: Question)
    requires DistinctIds(table)
    requires forall p :: p in table ==> p.id != q.id
    ensures DistinctIds(table + [q])
  {
    var t := table + [q];
    forall i, j | 0 <= i < j < |t|
      ensures t[i].id != t[j].id
    {
      if j == |table| {
        assert t[i] in table;
      } else {
        assert t[i] == table[i] && t[j] == table[j];
      }
    }
  }

  /** What loading yields: the question table and the answer pool. */
  datatype Loaded = Loaded(table: seq<Question>, answers: seq<string>)

  /** Loading: the sets expanded and joined, the table built with the
      remembered ranks, every answer pooled. */
  function Load(files: seq<SetFile>, user: UserData): (r: Loaded)
    ensures DistinctIds(r.table)
    ensures |r.answers| == |LoadSets(files)|
    ensures forall q :: q in r.table ==> q.id in user.known ==> q.rank == user.known[q.id]
    ensures forall q :: q in r.table ==> q.id !in user.known ==> q.rank == 0
    ensures forall c :: c in LoadSets(files) ==> c.id in KeySet(r.table)
    ensures forall i :: 0 <= i < |r.answers| ==> r.answers[i] == LoadSets(files)[i].a
  {
    var data := LoadSets(files);
    var table := BuildQuestions(data, user.known);
    forall c | c in data
      ensures c.id in KeySet(table)
    {
      var k :| 0 <= k < |data| && data[k] == c;
      LastWithFound(data, k);
      BuildQuestionsKeys(data, user.known, c.id);
    }
    Loaded(table, AllAnswers(data))
  }

  /** Every card's id has a last card carrying it. */
  lemma {:induction false} LastWithFound(data: seq<Card>, k: nat)
    requires k < |data|
    ensures LastWith(data, data[k].id).Some?
  {
    var n := |data| - 1;
    if k < n && data[n].id != data[k].id {
      assert data[..n][k] == data[k];
      LastWithFound(data[..n], k);
    }
  }
}

=== FILE: text.dfy ===
/** Strings as the trainer reads them from prompts: the Option wrapper for a
    prompt that may be aborted, the one-letter yes/no replies, and the decimal
    numbers used for question ids (`Q<index>`) and multiple-choice selections. */
module Text {

  /** A prompt reply: `None` when the prompt was aborted (end of input). */
  datatype Option<+T> = None | Some(value: T)

  /** Lower-cases ASCII capital letters and leaves every other character alone. */
  function ToLower(c: char): char
  {
    if 'A' <= c <= 'Z' then (c as int + 32) as char else c
  }

  /** The lower-cased first character of `reply || "n"`: an aborted or empty
      reply reads as "n". */
  function Initial(reply: Option<string>): char
  {
    var s := if reply.Some? && |reply.value| > 0 then reply.value else "n";
    ToLower(s[0])
  }

  /** A yes/no reply whose initial is `n` (the free-response confirmation). */
  predicate Declines(reply: Option<string>)
  {
    Initial(reply) == 'n'
  }

  /** A yes/no reply whose initial is `y` (the end-of-iteration exit prompt). */
  predicate Accepts(reply: Option<string>)
  {
    Initial(reply) == 'y'
  }

  /** Declining means: aborted, empty, or starting with `n` or `N`. */
  lemma DeclinesIff(reply: Option<string>)
    ensures Declines(reply) <==>
      reply.None? || reply.value == "" || reply.value[0] == 'n' || reply.value[0] == 'N'
  {
  }

  /** Accepting means: starting with `y` or `Y`; an aborted or empty reply never accepts. */
  lemma AcceptsIff(reply: Option<string>)
    ensures Accepts(reply) <==>
      reply.Some? && reply.value != "" && (reply.value[0] == 'y' || reply.value[0] == 'Y')
  {
  }

  predicate IsDigit(c: char)
  {
    '0' <= c <= '9'
  }

  predicate AllDigits(s: string)
  {
    forall i :: 0 <= i < |s| ==> IsDigit(s[i])
  }

  function DigitChar(d: nat): char
    requires d < 10
  {
    ('0' as int + d) as char
  }

  function DigitValue(c: char): nat
    requires IsDigit(c)
  {
    c as int - '0' as int
  }

  /** Decimal rendering of a natural number, as a template literal prints it. */
  function NatToString(n: nat): (s: string)
    ensures |s| > 0 && AllDigits(s)
    ensures s[0] == '0' ==> n == 0
  {
    if n < 10 then [DigitChar(n)] else NatToString(n / 10) + [DigitChar(n % 10)]
  }

  /** Value of a string of decimal digits (leading zeros allowed). */
  function DigitsValue(s: string): nat
    requires AllDigits(s)
  {
    if |s| == 0 then 0 else DigitsValue(s[..|s| - 1]) * 10 + DigitValue(s[|s| - 1])
  }

  /** Reading back a rendered number gives the number. */
  lemma {:induction false} DigitsValueOfNatToString(n: nat)
    ensures DigitsValue(NatToString(n)) == n
  {
    var s := NatToString(n);
    if n >= 10 {
      DigitsValueOfNatToString(n / 10);
      assert s[..|s| - 1] == NatToString(n / 10);
    }
  }

  /** Rendering is injective: distinct numbers print differently. */
  lemma NatToStringInjective(m: nat, n: nat)
    requires NatToString(m) == NatToString(n)
    ensures m == n
  {
    DigitsValueOfNatToString(m);
    DigitsValueOfNatToString(n);
  }

  /** The white space JavaScript's string-to-number conversion skips at both
      ends: tab, vertical tab, form feed, space, no-break space, byte order
      mark, the other space separators, and the line terminators. */
  predicate IsWhiteSpace(c: char)
  {
    || c == '\t' || c == '\n' || c == '\U{000B}' || c == '\U{000C}' || c == '\r' || c == ' '
    || c == '\U{00A0}' || c == '\U{1680}' || '\U{2000}' <= c <= '\U{200A}'
    || c == '\U{2028}' || c == '\U{2029}' || c == '\U{202F}' || c == '\U{205F}'
    || c == '\U{3000}' || c == '\U{FEFF}'
  }

  function TrimStart(s: string): (t: string)
    ensures |t| <= |s| && t == s[|s| - |t|..]
    ensures |t| > 0 ==> !IsWhiteSpace(t[0])
  {
    if |s| > 0 && IsWhiteSpace(s[0]) then TrimStart(s[1..]) else s
  }

  function TrimEnd(s: string): (t: string)
    ensures |t| <= |s| && t == s[..|t|]
    ensures |t| > 0 ==> !IsWhiteSpace(t[|t| - 1])
  {
    if |s| > 0 && IsWhiteSpace(s[|s| - 1]) then TrimEnd(s[..|s| - 1]) else s
  }

  /** `s` with surrounding white space removed. */
  function Trim(s: string): (t: string)
    ensures |t| > 0 ==> !IsWhiteSpace(t[0]) && !IsWhiteSpace(t[|t| - 1])
  {
    TrimEnd(TrimStart(s))
  }

  /** A string without white space at its ends is its own trim. */
  lemma TrimNoop(s: string)
    requires forall i :: 0 <= i < |s| ==> !IsWhiteSpace(s[i])
    ensures Trim(s) == s
  {
  }

  /** The array index `+selection` denotes, when it is one: blank input is 0,
      a run of decimal digits (white space around it allowed) is its value,
      anything else denotes no index. */
  function ParseSelection(selection: string): (k: Option<nat>)
    ensures Trim(selection) == "" ==> k == Some(0)
    ensures k.Some? <==> Trim(selection) == "" || AllDigits(Trim(selection))
  {
    var t := Trim(selection);
    if |t| == 0 then Some(0)
    else if AllDigits(t) then Some(DigitsValue(t))
    else None
  }

  /** Typing the number printed beside an option selects that option. */
  lemma {:induction false} ParseSelectionOfIndex(n: nat)
    ensures ParseSelection(NatToString(n)) == Some(n)
  {
    var s := NatToString(n);
    forall i | 0 <= i < |s|
      ensures !IsWhiteSpace(s[i])
    {
      assert IsDigit(s[i]);
    }
    TrimNoop(s);
    DigitsValueOfNatToString(n);
  }

  /** Zeros in front of a digit string do not change its value. */
  lemma {:induction false} LeadingZeros(zeros: string, s: string)
    requires forall i :: 0 <= i < |zeros| ==> zeros[i] == '0'
    requires AllDigits(s)
    ensures AllDigits(zeros + s)
    ensures DigitsValue(zeros + s) == DigitsValue(s)
    decreases |zeros| + |s|
  {
    var t := zeros + s;
    if |s| > 0 {
      assert t[..|t| - 1] == zeros + s[..|s| - 1];
      LeadingZeros(zeros, s[..|s| - 1]);
    } else if |zeros| > 0 {
      assert t[..|t| - 1] == zeros[..|zeros| - 1] + s;
      LeadingZeros(zeros[..|zeros| - 1], s);
    }
  }

  /** White space in front of a string that does not start with white space
      is exactly what `TrimStart` removes. */
  lemma {:induction false} TrimStartPadded(ws: string, t: string)
    requires forall i :: 0 <= i < |ws| ==> IsWhiteSpace(ws[i])
    requires |t| > 0 && !IsWhiteSpace(t[0])
    ensures TrimStart(ws + t) == t
  {
    if |ws| > 0 {
      assert (ws + t)[1..] == ws[1..] + t;
      TrimStartPadded(ws[1..], t);
    } else {
      assert ws + t == t;
    }
  }

  /** White space after a string that does not end with white space is
      exactly what `TrimEnd` removes. */
  lemma {:induction false} TrimEndPadded(t: string, ws: string)
    requires forall i :: 0 <= i < |ws| ==> IsWhiteSpace(ws[i])
    requires |t| > 0 && !IsWhiteSpace(t[|t| - 1])
    ensures TrimEnd(t + ws) == t
  {
    if |ws| > 0 {
      assert (t + ws)[..|t + ws| - 1] == t + ws[..|ws| - 1];
      TrimEndPadded(t, ws[..|ws| - 1]);
    } else {
      assert t + ws == t;
    }
  }

  lemma DigitIsNotWhiteSpace(c: char)
    requires IsDigit(c)
    ensures !IsWhiteSpace(c)
  {
  }

  /** A selection typed as a number, with white space around it and zeros in
      front of it, selects that number: `+" 3 "` and `+"03"` are both 3. */
  lemma ParseSelectionPadded(before: string, zeros: string, n: nat, after: string)
    requires forall i :: 0 <= i < |before| ==> IsWhiteSpace(before[i])
    requires forall i :: 0 <= i < |zeros| ==> zeros[i] == '0'
    requires forall i :: 0 <= i < |after| ==> IsWhiteSpace(after[i])
    ensures ParseSelection(before + zeros + NatToString(n) + after) == Some(n)
  {
    var number := NatToString(n);
    var digits := zeros + number;
    LeadingZeros(zeros, number);
    DigitsValueOfNatToString(n);
    DigitIsNotWhiteSpace(digits[0]);
    DigitIsNotWhiteSpace(digits[|digits| - 1]);
    assert before + zeros + number + after == before + (digits + after);
    TrimStartPadded(before, digits + after);
    TrimEndPadded(digits, after);
  }
}
